=== FILE: README.md ===
# Jigoshop order bookkeeping, modelled in Dafny

This project models the money bookkeeping of the Jigoshop `Order` entity
(`src/Jigoshop/Entity/Order.php`). An order holds:

- line items, keyed by item key;
- a per-tax-class `tax` ledger;
- an optional shipping method with its price and a per-tax-class `shippingTax` ledger;
- the running figures `productSubtotal`, `subtotal`, `total` and `discount`;
- a lazily computed `totalTax` cache;
- a status with a history of changes.

The mutators move these figures by deltas rather than recompute them.
`restoreState` rebuilds an order from a snapshot and recomputes `total` from
the ledgers.

Every operation is a pure function from an immutable `Order` to a new
`Order`, or to a `Result` where the source throws or hits a fatal error.

**Values**
- PHP arrays are `PhpArray`s: the keys in insertion order plus the map from key to value (`php_arrays.dfy`).
- Money is `real`.
- `$x * $quantity` is `Money.Times`, repeated addition by a whole number (`money.dfy`).

**Collaborators.** The tax service, the shipping method's `calculate` and the
product's tax classes are function-valued parameters (`OrderTypes.TaxService`,
the `pricing` argument).

**Modules**

| module | file | covers |
|---|---|---|
| `Ledgers` | `ledgers.dfy` | the two loops the order runs over tax classes: `+=` (`AddEach`, `Merge`) and `=` (`SetEach`) |
| `OrderTypes` | `order_types.dfy` | the entities and the constructor |
| `OrderItems` | `order_items.dfy` | items and `updateQuantity` |
| `OrderShipping` | `order_shipping.dfy` | shipping |
| `OrderTax` | `order_tax.dfy` | tax ledger and the `totalTax` cache |
| `OrderStatus` | `order_status.dfy` | status history |
| `OrderState` | `order_state.dfy` | save and restore |
| `OrderTracking` | `order_tracking.dfy` | the figures against what the items add up to: productSubtotal the items' costs, subtotal plus the shipping price, each tax class the items' taxes; which operations keep that |
| `OrderBalance` | `order_balance.dfy` | the invariant `total == subtotal + Σ tax + Σ shippingTax − discount`, which `restoreState` establishes; states which operations keep it |

**Source behaviour modelled as written**
- `addItem` files an item under its key and adds its cost even when the key already holds an item, so productSubtotal then counts the replaced item too. `removeItem` unsets the entry under the item's id, so the add/remove round trip needs `id == key`.
- `removeItems` keeps the discount.
- `updateTaxes` moves the ledger but not `total`.
- `updateQuantity` moves the ledger by the rates the tax service quotes now, not by the item's stored per-unit tax.
- `restoreState`:
  - adds the snapshot's shipping tax onto the ledger with `+=`;
  - replays items through `addItem` before it overwrites the subtotals;
  - reads no total, id or update messages.
- `getStateToSave` saves no `product_subtotal`.

**Assumed definitions.** `Item.php` is not part of this model. The two item
accessors the order calls are assumed to be:
- `Item::getCost()`: unit price times quantity (`OrderTypes.Cost`);
- `Item::getTotalTax()`: the per-unit tax of all classes times quantity (`OrderTypes.TotalTax`).

`Status::PENDING` is not part of this model either. `OrderTypes.Pending` ("pending") stands in for it, and no contract depends on its literal value.

## Model

| member | source | states |
|---|---|---|
| `OrderTypes.New` | src/Jigoshop/Entity/Order.php:46-82 | A new order is a guest's pending order with no items and zero figures. Both ledgers hold exactly the given tax classes (in order when they are distinct), all zero. The total-tax cache is empty. |
| `OrderItems.GetItem` | src/Jigoshop/Entity/Order.php:225-237 | A present key gives its item. A missing key gives an error in strict mode and null in lenient mode. |
| `OrderItems.GetItemAfterAddItem` | src/Jigoshop/Entity/Order.php:225-253 | Looking up the key an item was just added under finds that item in either mode. |
| `OrderItems.GetItemAfterRemoveItem` | src/Jigoshop/Entity/Order.php:225-275 | After removing an item filed under its id, looking up its key is an error in strict mode and null in lenient mode. |
| `OrderItems.AddItem` | src/Jigoshop/Entity/Order.php:242-253 | The item is filed under its key and other entries are kept. productSubtotal and subtotal rise by its cost, total by cost plus total tax. The cache is cleared. Well-formedness is kept, and nothing else changes. |
| `OrderItems.AddItemTaxes` | src/Jigoshop/Entity/Order.php:249-252 | The ledger's sum rises by the item's total tax. Each class rises by per-unit tax × quantity. |
| `OrderItems.RemoveItem` | src/Jigoshop/Entity/Order.php:259-275 | It fails exactly when the key is missing. Otherwise it returns the item filed under the key and takes its cost and tax off the figures. It clears the cache and unsets the entry under the item's id, leaving every other entry as it was. |
| `OrderItems.RemoveItemTaxes` | src/Jigoshop/Entity/Order.php:268-272 | The ledger's sum falls by the removed item's total tax. Each class falls by its per-unit tax × quantity. |
| `OrderItems.AddThenRemoveItem` | src/Jigoshop/Entity/Order.php:242-275 | Adding an item (id = key, fresh key) and removing it returns that item and exactly the original order, with only the cache cleared. |
| `OrderItems.AddThenRemoveItemAmounts` | src/Jigoshop/Entity/Order.php:242-275 | For any order, add-then-remove with id = key restores productSubtotal, subtotal, total and every tax class. |
| `OrderItems.RemoveItemKeepsEntryWhenIdDiffers` | src/Jigoshop/Entity/Order.php:242-275 | When an item's id differs from its key, removal leaves the entry in place. A second removal subtracts its cost again. |
| `OrderItems.RemoveItems` | src/Jigoshop/Entity/Order.php:207-216 | Shipping is removed and the items are emptied. The figures become zero and every class of both ledgers is zero, with the key order kept. The discount is kept. |
| `OrderShipping.RemoveShippingMethod` | src/Jigoshop/Entity/Order.php:330-338 | subtotal falls by the shipping price and total by price plus the shipping-tax sum. Method and price are cleared. Every shipping-tax class is zeroed with its key kept, and nothing else changes. |
| `OrderShipping.RemoveShippingIdempotent` | src/Jigoshop/Entity/Order.php:330-338 | Removing shipping twice equals removing it once. |
| `OrderShipping.SetShippingMethod` | src/Jigoshop/Entity/Order.php:313-325 | The previous selection is reversed and the method set. The price is what `calculate` quotes on the cleared order. subtotal and total move by price and price plus calculated tax. Each of the method's classes holds its quoted shipping tax and other classes are zero. |
| `OrderShipping.SetShippingKeepsBalance` | src/Jigoshop/Entity/Order.php:319-324 | With a coherent tax service, total − subtotal − Σ shippingTax is unchanged by selecting a method. |
| `OrderShipping.SetThenRemoveShipping` | src/Jigoshop/Entity/Order.php:313-338 | With a coherent tax service (the method names each class once and its shipping-tax total is the sum of its per-class quotes), selecting a method whose classes the ledger holds and then removing it ends where removing alone ends. |
| `OrderShipping.SetThenRemoveRestoresTotals` | src/Jigoshop/Entity/Order.php:313-338 | With a coherent tax service, on an order without shipping, select-then-remove restores subtotal and total and leaves all shipping tax zero. |
| `OrderItems.UpdateQuantityAsWritten` | src/Jigoshop/Entity/Order.php:524-549 | Missing key, then non-numeric quantity, are errors. A quantity ≤ 0 is `removeItem`. A positive quantity fails adding an array to a float (see Findings). |
| `OrderItems.UpdateQuantity` | src/Jigoshop/Entity/Order.php:524-549 | It fails exactly for a missing key or a non-numeric quantity. A quantity ≤ 0 behaves as the code as written. A positive quantity is `Resize` of the stored item. Success always clears the cache. |
| `OrderItems.UpdateQuantityPositive` | src/Jigoshop/Entity/Order.php:539-548 | For a positive quantity the code as written fails. The corrected operation stores the new quantity and moves productSubtotal and subtotal by price × (new − old). |
| `OrderItems.Resize` | src/Jigoshop/Entity/Order.php:539-548 | The figures move by price (plus per-unit tax for total) × difference. The item gets the new quantity, other entries are kept and the cache is cleared. Nothing else changes. |
| `OrderItems.ResizeKeepingCache` | src/Jigoshop/Entity/Order.php:543-548 | Lines 543-548 as written, reached once line 542 is corrected: it differs from `Resize` only in keeping the old cache. |
| `OrderItems.ResizeTaxSum` | src/Jigoshop/Entity/Order.php:545-547 | The ledger's sum moves by the sum of the live rates × the difference, whatever tax the item was added with. |
| `OrderItems.ResizeTaxAmount` | src/Jigoshop/Entity/Order.php:545-547 | Each class moves by its live rate × difference, once per listing of the class. |
| `OrderItems.ResizeBackTax` | src/Jigoshop/Entity/Order.php:545-547 | When the product names only classes the ledger holds, changing a quantity and changing it back restores the tax ledger exactly. |
| `OrderItems.ResizeBackFigures` | src/Jigoshop/Entity/Order.php:541-544 | Changing a quantity and changing it back restores total, subtotal and productSubtotal. |
| `OrderItems.ResizeBackAndForth` | src/Jigoshop/Entity/Order.php:539-548 | Changing a quantity and back yields the original order with only the cache cleared. |
| `OrderTax.SetTax` | src/Jigoshop/Entity/Order.php:456-460 | The ledger is replaced, the cache cleared, and nothing else changes. |
| `OrderTax.GetCombinedTax` | src/Jigoshop/Entity/Order.php:481-489 | The combined ledger is well formed. When shipping names only known classes it keeps the tax ledger's key order. |
| `OrderTax.CombinedTaxAmounts` | src/Jigoshop/Entity/Order.php:483-486 | Every class holds its tax plus its shipping tax. |
| `OrderTax.CombinedTaxSum` | src/Jigoshop/Entity/Order.php:481-489 | The combined ledger sums to Σ tax + Σ shippingTax. |
| `OrderTax.UpdateTaxes` | src/Jigoshop/Entity/Order.php:496-502 | The cache is cleared and only tax changes. Well-formedness is kept, and key order is kept when the amounts name only classes the ledger holds. |
| `OrderTax.UpdateTaxesMovesTotalTax` | src/Jigoshop/Entity/Order.php:496-502 | Each class rises by its given amount. The next `getTotalTax` returns the old sum plus the amounts' sum, and total stays. |
| `OrderTax.GetTotalTax` | src/Jigoshop/Entity/Order.php:507-514 | A filled cache is answered as is. Otherwise the ledger's sum is answered and cached. Nothing but the cache changes. |
| `OrderTax.TotalTaxIsLedgerSum` | src/Jigoshop/Entity/Order.php:507-514 | On a coherent order `getTotalTax` returns the ledger's sum and keeps the order coherent. Asking again changes nothing. |
| `OrderTax.LedgerChangesKeepCacheCoherent` | src/Jigoshop/Entity/Order.php:207-548 | addItem, removeItem, removeItems, setTax (line 458), updateTaxes (line 498) and the corrected quantity change leave the cache coherent. |
| `OrderTax.OtherChangesKeepCacheCoherent` | src/Jigoshop/Entity/Order.php:313-636 | The shipping operations (313-338), `setStatus` (367-379) and `restoreState` (582-636) leave a coherent cache coherent, so with `LedgerChangesKeepCacheCoherent` every operation keeps it. |
| `OrderTax.ResizeReadsMovedTotalTax` | src/Jigoshop/Entity/Order.php:539-548 | After the corrected quantity change, `getTotalTax` returns the moved sum. |
| `OrderTax.ResizeKeepingCacheGoesStale` | src/Jigoshop/Entity/Order.php:543-548 | With line 542 corrected and lines 543-548 as written, a filled cache survives a quantity change that moves the sum, so `getTotalTax` returns the old sum. |
| `OrderTax.StaleTotalTaxExample` | src/Jigoshop/Entity/Order.php:543-548 | A concrete stale read once line 542 is corrected, 2.0 against a ledger of 3.0. `Resize`, which also clears the cache, returns 3.0. |
| `OrderStatus.SetStatus` | src/Jigoshop/Entity/Order.php:367-379 | The status is always set. The history gains {message, old, new} exactly when the status changes and is unchanged otherwise. |
| `OrderStatus.SetStatusHistoryLength` | src/Jigoshop/Entity/Order.php:372-378 | The history grows by one iff the status differs. |
| `OrderStatus.SetStatusIdempotent` | src/Jigoshop/Entity/Order.php:367-379 | Setting the same status twice logs it once. |
| `OrderStatus.LeadsAppend` | src/Jigoshop/Entity/Order.php:373-377 | Appending a change out of the history's end status extends the chain of changes. |
| `OrderStatus.SetStatusKeepsHistory` | src/Jigoshop/Entity/Order.php:367-379 | A history that chains from a start status to the current one still chains to the new status afterwards. |
| `OrderStatus.NewOrderHistory` | src/Jigoshop/Entity/Order.php:60-64 | A new order's empty history chains from "pending" to its status. |
| `OrderState.ReplayItems` | src/Jigoshop/Entity/Order.php:600-604 | Each key holds the last replayed item filed under it, and a key no replayed item names keeps its entry. Replaying moves productSubtotal and subtotal by the items' costs and total by costs plus taxes. It clears the cache if any item is replayed and touches nothing else. |
| `OrderState.ReplayAppends` | src/Jigoshop/Entity/Order.php:600-604 | Replaying items under keys new to the order, each filed under its own key, appends those keys in order and files each item under its key, keeping the old entries. |
| `OrderState.ReplayItemsTax` | src/Jigoshop/Entity/Order.php:600-604 | Replaying moves the tax ledger's sum by the items' total taxes. |
| `OrderState.ReplayIgnoresHeader` | src/Jigoshop/Entity/Order.php:584-604 | Replaying items neither reads nor writes number or status. |
| `OrderState.RestoreHeader` | src/Jigoshop/Entity/Order.php:584-599 | Number and status are taken from the snapshot when set, and nothing else changes. |
| `OrderState.RestoreParties` | src/Jigoshop/Entity/Order.php:605-617 | It sets the customer unless stored as false, and method and price when the shipping entry is an array. It sets the payment unless empty, and the note when set. Nothing else changes. |
| `OrderState.RestoreFigures` | src/Jigoshop/Entity/Order.php:618-635 | The shipping tax is added on with `+=` and the snapshot's figures are taken when set. total = subtotal + Σ tax + Σ shippingTax − discount. |
| `OrderState.RestoreState` | src/Jigoshop/Entity/Order.php:582-636 | total = subtotal + Σ tax + Σ shippingTax − discount after restore. Unset subtotals are the old ones plus the replayed items' costs. The tax ledger is the replay's. id and history are kept. |
| `OrderState.RestoreIgnoresSavedTotal` | src/Jigoshop/Entity/Order.php:634-635 | The restored order does not depend on the snapshot's total. |
| `OrderState.RestoreTotalFromItems` | src/Jigoshop/Entity/Order.php:600-635 | With no figures in the snapshot, the restored total is the old subtotal, tax, shipping tax and discount combined with the items' costs and taxes and the snapshot's shipping tax. |
| `OrderState.RestoreAddsShippingTax` | src/Jigoshop/Entity/Order.php:618-623 | Restoring the same snapshot twice adds its shipping tax twice. |
| `OrderState.GetStateToSave` | src/Jigoshop/Entity/Order.php:554-577 | The snapshot carries items in order, shipping, figures, status and customer, but no productSubtotal. |
| `OrderState.SaveThenRestore` | src/Jigoshop/Entity/Order.php:554-636 | Save-then-restore into a new order brings back status, number, customer, shipping, subtotal and discount. productSubtotal becomes the items' costs, not the saved value. |
| `OrderState.ReplayRefiles` | src/Jigoshop/Entity/Order.php:600-604 | Replaying the items of an array whose items are filed under their own keys into an order without items rebuilds that array exactly. |
| `OrderState.SaveThenRestoreItems` | src/Jigoshop/Entity/Order.php:554-604 | When every item is filed under its own key, save-then-restore into a new order brings back exactly the items: the same keys in the same order with the same items. |
| `OrderTracking.SaveThenRestoreProductSubtotal` | src/Jigoshop/Entity/Order.php:554-604 | When productSubtotal is the items' costs, save-then-restore into a new order brings it back although the snapshot does not carry it. |
| `OrderTracking.ItemsCostIsCostOf` | src/Jigoshop/Entity/Order.php:600-604 | The items' costs added up over the array in key order equal the costs of the items as `foreach` visits them, the sum the replay adds. |
| `OrderTracking.NewTracks` | src/Jigoshop/Entity/Order.php:46-82 | A new order tracks its items: productSubtotal is the items' costs, subtotal adds the shipping price, every tax class holds the items' taxes in it. |
| `OrderTracking.AddItemTracks` | src/Jigoshop/Entity/Order.php:242-253 | `addItem` under a fresh key, of an item filed under its id, keeps the figures tracking the items. |
| `OrderTracking.AddItemOverKeyCountsOldCost` | src/Jigoshop/Entity/Order.php:244-245 | `addItem` over a key already filed leaves productSubtotal above the items' costs by the replaced item's cost. |
| `OrderTracking.AddItemTwiceExample` | src/Jigoshop/Entity/Order.php:244-245 | Adding the same item of cost 10.0 twice leaves one item, items' cost 10.0, and productSubtotal 20.0. |
| `OrderTracking.RemoveItemTracks` | src/Jigoshop/Entity/Order.php:259-275 | `removeItem` keeps the figures tracking the items when every item is filed under its id. |
| `OrderTracking.RemoveItemsTracks` | src/Jigoshop/Entity/Order.php:207-216 | After `removeItems` any well-formed order tracks its (no) items. |
| `OrderTracking.RemoveShippingTracks` | src/Jigoshop/Entity/Order.php:330-338 | `removeShippingMethod` keeps the figures tracking the items and the shipping price. |
| `OrderTracking.SetShippingTracks` | src/Jigoshop/Entity/Order.php:313-325 | `setShippingMethod` keeps the figures tracking the items and the new shipping price. |
| `OrderTracking.ResizeTracksCost` | src/Jigoshop/Entity/Order.php:539-544 | The corrected quantity change keeps productSubtotal equal to the items' costs and subtotal equal to productSubtotal plus the shipping price. |
| `OrderBalance.NewIsBalanced` | src/Jigoshop/Entity/Order.php:46-82 | A new order satisfies the balance. |
| `OrderBalance.AddItemKeepsBalance` | src/Jigoshop/Entity/Order.php:242-253 | `addItem` keeps the balance. |
| `OrderBalance.RemoveItemKeepsBalance` | src/Jigoshop/Entity/Order.php:259-275 | `removeItem` keeps the balance. |
| `OrderBalance.RemoveShippingKeepsBalance` | src/Jigoshop/Entity/Order.php:330-338 | `removeShippingMethod` keeps the balance. |
| `OrderBalance.SetShippingMethodKeepsBalance` | src/Jigoshop/Entity/Order.php:313-325 | With a coherent tax service, `setShippingMethod` keeps the balance. |
| `OrderBalance.ResizeBalance` | src/Jigoshop/Entity/Order.php:539-548 | A quantity change keeps the balance iff the stored per-unit tax and the live rates move by the same amount. |
| `OrderBalance.UpdateTaxesBalance` | src/Jigoshop/Entity/Order.php:496-502 | `updateTaxes` keeps the balance iff the amounts sum to zero. |
| `OrderBalance.RemoveItemsBalance` | src/Jigoshop/Entity/Order.php:207-216 | After `removeItems` the order is balanced iff there is no discount. |
| `OrderBalance.ReplayKeepsBalance` | src/Jigoshop/Entity/Order.php:600-604 | Replaying items keeps the balance. |
| `OrderBalance.RestoreAgreesWithAddItem` | src/Jigoshop/Entity/Order.php:600-635 | On a balanced order, from a snapshot that sets no subtotal, discount or shipping tax, the total `restoreState` recomputes equals the total `addItem` reaches incrementally for the snapshot's items. |

## Left out

- Dates:
  - `createdAt`, `updatedAt` and `completedAt`, with their `restoreState` branches;
  - the `updated_at` and `completed_at` snapshot entries.
  They carry no money logic.
- `serialize`/`unserialize` of the customer and of the shipping tax: the snapshot carries the values themselves.
- `OrderState.SaveThenRestore`: the source's two halves do not match as a direct round trip, and the lemma composes them through a storage layer in between. That layer must:
  - unserialize the customer, which `getStateToSave` serializes (line 562) but `restoreState` assigns as is (line 606);
  - serialize the shipping tax, which `getStateToSave` emits as an array (line 573) but `restoreState` passes to `unserialize` (line 619);
  - turn the shipping method's `getState()` record (line 565) back into a method, which `restoreState` stores as is (line 609).
- `OrderState.GetStateToSave`: the snapshot carries the customer, the shipping method and the payment method as values, not as the serialized string, the `getState()` record and the `getId()` the source writes (lines 562-568).
- `OrderTracking.ResizeTracksCost`: states the productSubtotal and subtotal parts only. The corrected quantity change moves the tax ledger by the live rates, so the tax classes keep tracking the items only when those rates equal the stored per-unit tax (compare `OrderBalance.ResizeBalance`).
- Tracking through `setTax`, `updateTaxes` and `restoreState` is not stated:
  - `setTax` and `updateTaxes` replace or move the ledger regardless of the items;
  - `restoreState` overwrites the subtotals with the snapshot's figures.
- The `customer_id` snapshot entry, which mirrors the customer.
- The warning logged through `Registry` in lenient `getItem`: logging only.
- The exception texts.
- Plain getters and setters, `hasShippingMethod` and `getTitle`: no bookkeeping.
- Floating-point rounding: money is exact `real`.
- `(float)` casts in `restoreState`: snapshot figures are already numbers.
- Quantities:
  - a non-integer numeric quantity is not modelled;
  - `is_numeric` is the `Quantity` choice between a whole number and something non-numeric.
- Constructor tax classes: the constructor reads each entry's `class` field; the model takes the list of class names.
- `productSubtotal` starts as PHP `null`, which arithmetic reads as 0; the model starts it at 0.0.
- `Item.php` is not part of this model: `Item::getCost` and `Item::getTotalTax` are the assumed definitions given above.
- The tax service, the shipping and payment methods and the product are given as parameters.
- `removeItem` on a missing key calls a method on null, which is fatal in PHP. Here it is the `NoSuchItem` failure with the order untouched.
- `OrderItems.ResizeBackAndForth` requires that the product names only classes the tax ledger already holds. Otherwise the first change creates new zero-valued entries, and only the amounts, not the key list, come back.
- `OrderItems.AddThenRemoveItem` requires a fresh key and the item's classes already in the ledger, for the same reason. `OrderItems.AddThenRemoveItemAmounts` states the amounts without those conditions.

## Findings

| source | as written | input that shows it | evidently intended | confidence | as-written member | corrected member |
|---|---|---|---|---|---|---|
| src/Jigoshop/Entity/Order.php:542 | `($item->getPrice() + $item->getTax()) * $difference` adds the per-class tax array (iterated as an array at lines 249 and 268) to a float, which PHP rejects with a fatal error | any item in the order and any positive quantity (`OrderItems.UpdateQuantityPositive`) | the price plus the item's per-unit tax summed over its classes | medium, not executed (the type of `getTax` is inferred from its use in this file) | `OrderItems.UpdateQuantityAsWritten` | `OrderItems.UpdateQuantity` |
| src/Jigoshop/Entity/Order.php:543-548 | the positive branch of `updateQuantity` changes the tax ledger but leaves the cached `totalTax`; the defect is latent, because line 542 fails first (row above), and appears once that line is corrected | with line 542 corrected: item at 10.0 with per-unit tax 1.0 in "standard", quantity 2, tax service quoting 1.0; read `getTotalTax` (2.0), then set quantity 3: ledger sums to 3.0, `getTotalTax` returns 2.0 (`OrderTax.StaleTotalTaxExample`) | clear the cache as every other change of the ledger does (lines 215, 252, 272, 458, 498) | medium, not executed (unreachable until line 542 is fixed) | `OrderItems.ResizeKeepingCache` | `OrderItems.Resize` |

=== FILE: ledgers.dfy ===
/**
 * Tax ledgers: PHP arrays from tax-class name to an amount of money. The
 * order keeps two of them (`tax` and `shippingTax`) and every line item keeps
 * its per-unit tax in one. PHP reads a missing class as `null`, which counts
 * as zero in arithmetic, so `$ledger[$class] += $x` on a missing class
 * creates the entry with value `$x`; `Amount` captures that reading.
 *
 * The order updates ledgers with two kinds of loop over a list of classes:
 * `+=` (`AddEach`) and `=` (`SetEach`); the amounts come from a map, and a
 * class the map does not hold reads as zero there too.
 */
module Ledgers {
  import opened PhpArrays
  import opened Money

  type TaxClass = string
  type Ledger = PhpArray<TaxClass, real>
  type Amounts = map<TaxClass, real>

  /** The amount a map gives a class, 0 when it gives none: the class's weight, taken as is. */
  function At(m: Amounts, c: TaxClass): real {
    Weight(m, c, AsIs)
  }

  /** `$ledger[$class]` used as a number: the stored amount, or 0 when the class is absent. */
  function Amount(l: Ledger, c: TaxClass): real {
    At(l.values, c)
  }

  function AsIs(x: real): real { x }

  /** `array_reduce($ledger, fn($v, $x) => $v + $x, 0.0)` */
  function Sum(l: Ledger): real {
    SumOf(l, AsIs)
  }

  /** The amounts a map gives the listed classes, added up, a class counted as often as it is listed. */
  function Total(ks: seq<TaxClass>, m: Amounts): real {
    SumKeys(ks, m, AsIs)
  }

  /** Every listed class already has an entry in the ledger. */
  predicate Covers(l: Ledger, ks: seq<TaxClass>) {
    forall k :: k in ks ==> k in l.values
  }

  /** How often `c` is listed. */
  function Count(ks: seq<TaxClass>, c: TaxClass): nat {
    if |ks| == 0 then 0 else (if ks[0] == c then 1 else 0) + Count(ks[1..], c)
  }

  /** `$ledger[$class] += $x` */
  function Increase(l: Ledger, c: TaxClass, x: real): (r: Ledger)
    ensures Amount(r, c) == Amount(l, c) + x
    ensures forall d :: d != c ==> Amount(r, d) == Amount(l, d)
    ensures r.values.Keys == l.values.Keys + {c}
    ensures Valid(l) && c in l.values ==> r.keys == l.keys
  {
    Set(l, c, Amount(l, c) + x)
  }

  /** `foreach ($ks as $class) $ledger[$class] += $m[$class];` */
  function AddEach(l: Ledger, ks: seq<TaxClass>, m: Amounts): Ledger
    decreases |ks|
  {
    if |ks| == 0 then l else AddEach(Increase(l, ks[0], At(m, ks[0])), ks[1..], m)
  }

  /**
   * The `+=` loop keeps a ledger well formed, and when it only names classes
   * the ledger holds it adds no class and keeps the order.
   */
  lemma {:induction false} AddEachKeeps(l: Ledger, ks: seq<TaxClass>, m: Amounts)
    ensures Valid(l) ==> Valid(AddEach(l, ks, m))
    ensures Valid(l) && Covers(l, ks) ==>
      AddEach(l, ks, m).keys == l.keys && AddEach(l, ks, m).values.Keys == l.values.Keys
    decreases |ks|
  {
    if |ks| > 0 {
      AddEachKeeps(Increase(l, ks[0], At(m, ks[0])), ks[1..], m);
    }
  }

  /** `foreach ($ks as $class) $ledger[$class] = $m[$class];` */
  function SetEach(l: Ledger, ks: seq<TaxClass>, m: Amounts): (r: Ledger)
    ensures Valid(l) ==> Valid(r)
    ensures Valid(l) && Covers(l, ks) ==> r.keys == l.keys && r.values.Keys == l.values.Keys
    ensures r.values.Keys == l.values.Keys + set k | k in ks
    decreases |ks|
  {
    if |ks| == 0 then l else SetEach(Set(l, ks[0], At(m, ks[0])), ks[1..], m)
  }

  /** `array_map(fn() => 0.0, $ledger)`: the same classes in the same order, every amount zero. */
  function Zeroed(l: Ledger): (r: Ledger)
    ensures r.keys == l.keys && r.values.Keys == l.values.Keys
    ensures forall c :: Amount(r, c) == 0.0
    ensures Valid(l) ==> Valid(r)
  {
    PhpArray(l.keys, map c | c in l.values :: 0.0)
  }

  /** Every amount multiplied by the whole number `n`. */
  function Scale(m: Amounts, n: int): (r: Amounts)
    ensures r.Keys == m.Keys
  {
    map c | c in m :: Times(m[c], n)
  }

  /** Every amount negated. */
  function Negate(m: Amounts): (r: Amounts)
    ensures r.Keys == m.Keys
  {
    map c | c in m :: -m[c]
  }

  /** `foreach ($delta as $class => $x) $ledger[$class] += $x * $n;` */
  function AddScaled(l: Ledger, delta: Ledger, n: int): (r: Ledger)
    ensures Valid(l) ==> Valid(r)
    ensures Valid(l) && Covers(l, delta.keys) ==> r.keys == l.keys
  {
    AddEachKeeps(l, delta.keys, Scale(delta.values, n));
    AddEach(l, delta.keys, Scale(delta.values, n))
  }

  /** `foreach ($delta as $class => $x) $ledger[$class] -= $x * $n;` */
  function SubtractScaled(l: Ledger, delta: Ledger, n: int): (r: Ledger)
    ensures Valid(l) ==> Valid(r)
    ensures Valid(l) && Covers(l, delta.keys) ==> r.keys == l.keys
  {
    AddEachKeeps(l, delta.keys, Negate(Scale(delta.values, n)));
    AddEach(l, delta.keys, Negate(Scale(delta.values, n)))
  }

  /** `foreach ($delta as $class => $x) $ledger[$class] += $x;` */
  function Merge(l: Ledger, delta: Ledger): Ledger {
    AddEach(l, delta.keys, delta.values)
  }

  /** A list without repetitions names each listed class once. */
  lemma {:induction false} CountUnique(ks: seq<TaxClass>, c: TaxClass)
    requires NoDuplicates(ks)
    ensures Count(ks, c) == if c in ks then 1 else 0
    decreases |ks|
  {
    if |ks| > 0 {
      CountUnique(ks[1..], c);
      if ks[0] == c {
        HeadNotInTail(ks);
      }
    }
  }

  /** Increasing one class moves the sum by the increase. */
  lemma SumIncrease(l: Ledger, c: TaxClass, x: real)
    requires Valid(l)
    ensures Sum(Increase(l, c, x)) == Sum(l) + x
  {
    SumOfSet(l, c, Amount(l, c) + x, AsIs);
  }

  /** Each class gains its amount once for every time the loop lists it. */
  lemma {:induction false} AmountAddEach(l: Ledger, ks: seq<TaxClass>, m: Amounts, c: TaxClass)
    ensures Amount(AddEach(l, ks, m), c) == Amount(l, c) + Times(At(m, c), Count(ks, c))
    decreases |ks|
  {
    if |ks| > 0 {
      var l' := Increase(l, ks[0], At(m, ks[0]));
      AmountAddEach(l', ks[1..], m, c);
      TimesStep(At(m, c), Count(ks[1..], c));
    }
  }

  /** The `+=` loop moves the sum by the listed amounts. */
  lemma {:induction false} SumAddEach(l: Ledger, ks: seq<TaxClass>, m: Amounts)
    requires Valid(l)
    ensures Sum(AddEach(l, ks, m)) == Sum(l) + Total(ks, m)
    decreases |ks|
  {
    if |ks| > 0 {
      SumIncrease(l, ks[0], At(m, ks[0]));
      SumAddEach(Increase(l, ks[0], At(m, ks[0])), ks[1..], m);
    }
  }

  /** Scaling the amounts scales their total. */
  lemma {:induction false} TotalScale(ks: seq<TaxClass>, m: Amounts, n: int)
    ensures Total(ks, Scale(m, n)) == Times(Total(ks, m), n)
    decreases |ks|
  {
    if |ks| == 0 {
      TimesZero(n);
    } else {
      TotalScale(ks[1..], m, n);
      TimesDistributes(At(m, ks[0]), Total(ks[1..], m), n);
      if ks[0] !in m {
        TimesZero(n);
      }
    }
  }

  /** Negating the amounts negates their total. */
  lemma {:induction false} TotalNegate(ks: seq<TaxClass>, m: Amounts)
    ensures Total(ks, Negate(m)) == -Total(ks, m)
    decreases |ks|
  {
    if |ks| > 0 {
      TotalNegate(ks[1..], m);
    }
  }

  /** Adding a scaled ledger moves the sum by `n` times the sum of `delta`. */
  lemma SumAddScaled(l: Ledger, delta: Ledger, n: int)
    requires Valid(l)
    ensures Sum(AddScaled(l, delta, n)) == Sum(l) + Times(Sum(delta), n)
  {
    SumAddEach(l, delta.keys, Scale(delta.values, n));
    TotalScale(delta.keys, delta.values, n);
  }

  /** Subtracting a scaled ledger moves the sum by `n` times the sum of `delta`, downwards. */
  lemma SumSubtractScaled(l: Ledger, delta: Ledger, n: int)
    requires Valid(l)
    ensures Sum(SubtractScaled(l, delta, n)) == Sum(l) - Times(Sum(delta), n)
  {
    SumAddEach(l, delta.keys, Negate(Scale(delta.values, n)));
    TotalNegate(delta.keys, Scale(delta.values, n));
    TotalScale(delta.keys, delta.values, n);
  }

  /** Adding a scaled ledger with distinct classes moves each class by `n` times its amount in `delta`. */
  lemma AmountAddScaled(l: Ledger, delta: Ledger, n: int, c: TaxClass)
    requires Valid(delta)
    ensures Amount(AddScaled(l, delta, n), c) == Amount(l, c) + Times(Amount(delta, c), n)
  {
    AmountAddEach(l, delta.keys, Scale(delta.values, n), c);
    CountUnique(delta.keys, c);
    if c !in delta.values {
      TimesZero(n);
    }
  }

  /** Subtracting a scaled ledger with distinct classes moves each class by `n` times its amount in `delta`, downwards. */
  lemma AmountSubtractScaled(l: Ledger, delta: Ledger, n: int, c: TaxClass)
    requires Valid(delta)
    ensures Amount(SubtractScaled(l, delta, n), c) == Amount(l, c) - Times(Amount(delta, c), n)
  {
    AmountAddEach(l, delta.keys, Negate(Scale(delta.values, n)), c);
    CountUnique(delta.keys, c);
    if c !in delta.values {
      TimesZero(n);
    }
  }

  /** Merging a well-formed ledger adds its amount to every class. */
  lemma MergeAmount(l: Ledger, delta: Ledger, c: TaxClass)
    requires Valid(delta)
    ensures Amount(Merge(l, delta), c) == Amount(l, c) + Amount(delta, c)
  {
    AmountAddEach(l, delta.keys, delta.values, c);
    CountUnique(delta.keys, c);
    if c in delta.values {
      TimesStep(delta.values[c], 0);
    }
  }

  /** Merging adds the sum of `delta` to the sum of the ledger. */
  lemma MergeSum(l: Ledger, delta: Ledger)
    requires Valid(l)
    ensures Sum(Merge(l, delta)) == Sum(l) + Sum(delta)
  {
    SumAddEach(l, delta.keys, delta.values);
  }

  /** After the `=` loop a listed class holds its amount from the map, and any other class keeps its own. */
  lemma {:induction false} AmountSetEach(l: Ledger, ks: seq<TaxClass>, m: Amounts, c: TaxClass)
    ensures Amount(SetEach(l, ks, m), c) == if c in ks then At(m, c) else Amount(l, c)
    decreases |ks|
  {
    if |ks| > 0 {
      AmountSetEach(Set(l, ks[0], At(m, ks[0])), ks[1..], m, c);
    }
  }

  /** The `=` loop over distinct classes that all hold zero adds the listed amounts to the sum. */
  lemma {:induction false} SumSetEachOntoZeros(l: Ledger, ks: seq<TaxClass>, m: Amounts)
    requires Valid(l) && NoDuplicates(ks)
    requires forall k :: k in ks ==> Amount(l, k) == 0.0
    ensures Sum(SetEach(l, ks, m)) == Sum(l) + Total(ks, m)
    decreases |ks|
  {
    if |ks| > 0 {
      var l' := Set(l, ks[0], At(m, ks[0]));
      SumOfSet(l, ks[0], At(m, ks[0]), AsIs);
      assert Sum(l') == Sum(l) + At(m, ks[0]) by {
        assert Weight(l.values, ks[0], AsIs) == Amount(l, ks[0]) == 0.0;
      }
      HeadNotInTail(ks);
      forall k | k in ks[1..]
        ensures Amount(l', k) == 0.0
      {
        assert k != ks[0] && k in ks;
      }
      SumSetEachOntoZeros(l', ks[1..], m);
      assert Total(ks, m) == At(m, ks[0]) + Total(ks[1..], m) by {
        assert Weight(m, ks[0], AsIs) == At(m, ks[0]);
      }
    }
  }

  /** Only the weights of the listed keys count, and all of them are zero. */
  lemma {:induction false} TotalOfZeros(ks: seq<TaxClass>, m: Amounts)
    requires forall k :: k in m ==> m[k] == 0.0
    ensures Total(ks, m) == 0.0
    decreases |ks|
  {
    if |ks| > 0 {
      TotalOfZeros(ks[1..], m);
    }
  }

  /** A ledger whose every amount is zero sums to zero. */
  lemma SumOfZeros(l: Ledger)
    requires forall c :: Amount(l, c) == 0.0
    ensures Sum(l) == 0.0
  {
    forall k | k in l.values
      ensures l.values[k] == 0.0
    {
      assert Amount(l, k) == 0.0;
    }
    TotalOfZeros(l.keys, l.values);
  }

  /** The `=` loop over distinct classes the ledger does not hold yet appends them in order. */
  lemma {:induction false} SetEachFresh(l: Ledger, ks: seq<TaxClass>, m: Amounts)
    requires Valid(l) && NoDuplicates(ks)
    requires forall k :: k in ks ==> k !in l.values
    ensures SetEach(l, ks, m).keys == l.keys + ks
    decreases |ks|
  {
    if |ks| > 0 {
      HeadNotInTail(ks);
      var l' := Set(l, ks[0], At(m, ks[0]));
      SetFresh(l, ks[0], At(m, ks[0]), ks[1..]);
      SetEachFresh(l', ks[1..], m);
      AppendHead(l.keys, ks);
    }
  }

  /** Setting a fresh class appends it and leaves the classes still to come fresh. */
  lemma SetFresh(l: Ledger, k: TaxClass, v: real, rest: seq<TaxClass>)
    requires Valid(l) && k !in l.values && k !in rest
    requires forall x :: x in rest ==> x !in l.values
    ensures Set(l, k, v).keys == l.keys + [k]
    ensures forall x :: x in rest ==> x !in Set(l, k, v).values
  {
  }

  /** Two ledgers with the same classes in the same order and the same amounts are equal. */
  lemma LedgerExt(a: Ledger, b: Ledger)
    requires Valid(a) && Valid(b) && a.keys == b.keys
    requires forall c :: Amount(a, c) == Amount(b, c)
    ensures a == b
  {
    assert a.values.Keys == b.values.Keys;
    forall c | c in a.values
      ensures a.values[c] == b.values[c]
    {
      assert Amount(a, c) == Amount(b, c);
    }
  }

  /** The `+=` loop followed by the same loop with negated amounts returns every class to its amount. */
  lemma AddEachNegateCancelsPointwise(l: Ledger, ks: seq<TaxClass>, m: Amounts, c: TaxClass)
    ensures Amount(AddEach(AddEach(l, ks, m), ks, Negate(m)), c) == Amount(l, c)
  {
    AmountAddEach(l, ks, m, c);
    AmountAddEach(AddEach(l, ks, m), ks, Negate(m), c);
    TimesNegated(At(m, c), Count(ks, c));
  }

  /** When the loop only names classes the ledger already holds, adding and then adding the negation gives back the very same ledger. */
  lemma AddEachNegateCancels(l: Ledger, ks: seq<TaxClass>, m: Amounts)
    requires Valid(l) && Covers(l, ks)
    ensures AddEach(AddEach(l, ks, m), ks, Negate(m)) == l
  {
    var once := AddEach(l, ks, m);
    var r := AddEach(once, ks, Negate(m));
    AddEachKeeps(l, ks, m);
    AddEachKeeps(once, ks, Negate(m));
    forall c ensures Amount(r, c) == Amount(l, c) {
      AddEachNegateCancelsPointwise(l, ks, m, c);
    }
    LedgerExt(r, l);
  }

  /** Subtracting what was just added returns every class to its amount, repeated classes or not. */
  lemma SubtractScaledCancelsPointwise(l: Ledger, delta: Ledger, n: int, c: TaxClass)
    ensures Amount(SubtractScaled(AddScaled(l, delta, n), delta, n), c) == Amount(l, c)
  {
    AddEachNegateCancelsPointwise(l, delta.keys, Scale(delta.values, n), c);
  }

  /** When `delta` only names classes the ledger already holds, adding and then subtracting gives back the very same ledger. */
  lemma SubtractScaledCancels(l: Ledger, delta: Ledger, n: int)
    requires Valid(l) && Covers(l, delta.keys)
    ensures SubtractScaled(AddScaled(l, delta, n), delta, n) == l
  {
    AddEachNegateCancels(l, delta.keys, Scale(delta.values, n));
  }

  /** Adding a scaled map and then the oppositely scaled map leaves a ledger as it was. */
  lemma AddEachOppositeCancels(l: Ledger, ks: seq<TaxClass>, m: Amounts, n: int)
    requires Valid(l) && Covers(l, ks)
    ensures AddEach(AddEach(l, ks, Scale(m, n)), ks, Scale(m, -n)) == l
  {
    ScaleOpposite(m, n);
    AddEachNegateCancels(l, ks, Scale(m, n));
  }

  /** Scaling by the opposite factor is scaling and then negating. */
  lemma ScaleOpposite(m: Amounts, n: int)
    ensures Scale(m, -n) == Negate(Scale(m, n))
  {
    forall c | c in m
      ensures Scale(m, -n)[c] == Negate(Scale(m, n))[c]
    {
      TimesOpposite(m[c], n);
    }
  }
}

=== FILE: money.dfy ===
/**
 * Amounts of money times whole quantities. The order only ever multiplies a
 * price or a tax rate by an item quantity or by a change of quantity, so the
 * product is defined as repeated addition; `TimesIsProduct` ties it to real
 * multiplication. Keeping the product in this form keeps every other proof
 * in linear arithmetic.
 */
module Money {

  /** `$x * $n` for a whole number `$n`. */
  function Times(x: real, n: int): real
    decreases if n < 0 then -n else n
  {
    if n == 0 then 0.0
    else if n > 0 then Times(x, n - 1) + x
    else Times(x, n + 1) - x
  }

  /** Repeated addition is multiplication. */
  lemma {:induction false} TimesIsProduct(x: real, n: int)
    ensures Times(x, n) == x * (n as real)
    decreases if n < 0 then -n else n
  {
    if n > 0 {
      TimesIsProduct(x, n - 1);
      assert x * ((n - 1) as real) + x == x * (n as real);
    } else if n < 0 {
      TimesIsProduct(x, n + 1);
      assert x * ((n + 1) as real) - x == x * (n as real);
    }
  }

  /** Nothing times any quantity is nothing. */
  lemma {:induction false} TimesZero(n: int)
    ensures Times(0.0, n) == 0.0
    decreases if n < 0 then -n else n
  {
    if n > 0 {
      TimesZero(n - 1);
    } else if n < 0 {
      TimesZero(n + 1);
    }
  }

  /** One step of the quantity adds or removes one unit amount, whatever the sign. */
  lemma {:induction false} TimesStep(x: real, n: int)
    ensures Times(x, n + 1) == Times(x, n) + x
    decreases if n < 0 then -n else n
  {
    if n < 0 {
      assert Times(x, n) == Times(x, n + 1) - x;
    }
  }

  /** Quantities add: `$x * ($m + $n) == $x * $m + $x * $n`. */
  lemma {:induction false} TimesAdd(x: real, m: int, n: int)
    ensures Times(x, m + n) == Times(x, m) + Times(x, n)
    decreases if n < 0 then -n else n
  {
    if n > 0 {
      TimesAdd(x, m, n - 1);
      TimesStep(x, m + n - 1);
      TimesStep(x, n - 1);
    } else if n < 0 {
      TimesAdd(x, m, n + 1);
      TimesStep(x, m + n);
      TimesStep(x, n);
    }
  }

  /** Amounts add: `($x + $y) * $n == $x * $n + $y * $n`. */
  lemma {:induction false} TimesDistributes(x: real, y: real, n: int)
    ensures Times(x + y, n) == Times(x, n) + Times(y, n)
    decreases if n < 0 then -n else n
  {
    if n > 0 {
      TimesDistributes(x, y, n - 1);
    } else if n < 0 {
      TimesDistributes(x, y, n + 1);
    }
  }

  /** The opposite quantity gives the opposite amount. */
  lemma TimesOpposite(x: real, n: int)
    ensures Times(x, -n) == -Times(x, n)
  {
    TimesAdd(x, n, -n);
  }

  /** The opposite amount gives the opposite total. */
  lemma TimesNegated(x: real, n: int)
    ensures Times(-x, n) == -Times(x, n)
  {
    TimesDistributes(x, -x, n);
    TimesZero(n);
  }
}

=== FILE: order_balance.dfy ===
/**
 * The balance the order's figures are meant to keep: total is subtotal plus
 * the tax and shipping-tax ledgers less the discount. `restoreState`
 * (Order.php:634-635) establishes it by recomputing total; the other
 * operations move total by deltas and are meant to keep it. This module
 * states which of them do, and under what conditions.
 */
module OrderBalance {
  import opened Results
  import opened PhpArrays
  import opened Money
  import opened Ledgers
  import opened OrderTypes
  import opened OrderShipping
  import opened OrderItems
  import opened OrderTax
  import opened OrderState

  /** total == subtotal + Σ tax + Σ shipping tax − discount */
  predicate Balanced(o: Order) {
    o.total == o.subtotal + Sum(o.tax) + Sum(o.shippingTax) - o.discount
  }

  /** A new order is balanced: every figure and every ledger entry is zero. */
  lemma NewIsBalanced(taxClasses: seq<TaxClass>)
    ensures Balanced(New(taxClasses))
  {
  }

  /** `addItem` keeps the balance: the item's tax enters total and the ledger alike. */
  lemma AddItemKeepsBalance(o: Order, item: Item)
    requires Valid(o.tax) && Balanced(o)
    ensures Balanced(AddItem(o, item))
  {
    AddItemTaxes(o, item);
  }

  /** `removeItem` keeps the balance. */
  lemma RemoveItemKeepsBalance(o: Order, key: ItemKey)
    requires key in o.items.values && Valid(o.tax) && Balanced(o)
    ensures Balanced(RemoveItem(o, key).value.order)
  {
    RemoveItemTaxes(o, key);
  }

  /** `removeShippingMethod` keeps the balance: the shipping tax leaves total and the ledger alike. */
  lemma RemoveShippingKeepsBalance(o: Order)
    requires Balanced(o)
    ensures Balanced(RemoveShippingMethod(o))
  {
    SumOfZeros(RemoveShippingMethod(o).shippingTax);
  }

  /** With a coherent tax service, `setShippingMethod` keeps the balance. */
  lemma SetShippingMethodKeepsBalance(o: Order, m: ShippingMethod, pricing: (ShippingMethod, Order) -> real,
                                      ts: TaxService)
    requires Valid(o.shippingTax) && Balanced(o)
    requires ShippingTaxAgrees(ts, m, pricing(m, Quoting(o, m)), o.customer)
    ensures Balanced(SetShippingMethod(o, m, pricing, ts))
  {
    SetShippingKeepsBalance(o, m, pricing, ts);
  }

  /**
   * A quantity change keeps the balance exactly when the item's stored
   * per-unit tax and the rates quoted now move by the same amount: total
   * moves by the former, the ledger by the latter.
   */
  lemma ResizeBalance(o: Order, key: ItemKey, item: Item, quantity: int, ts: TaxService)
    requires Valid(o.tax) && Balanced(o)
    ensures var d := quantity - item.quantity;
      Balanced(Resize(o, key, item, quantity, ts)) <==>
        Times(Sum(item.tax), d) == Times(Total(item.product.taxClasses, LiveRates(ts, item.product)), d)
  {
    ResizeTaxSum(o, key, item, quantity, ts);
    TimesDistributes(item.price, Sum(item.tax), quantity - item.quantity);
  }

  /** `updateTaxes` moves the ledger but not total, so it keeps the balance only when the amounts sum to zero. */
  lemma UpdateTaxesBalance(o: Order, delta: Ledger)
    requires Valid(o.tax) && Balanced(o)
    ensures Balanced(UpdateTaxes(o, delta)) <==> Sum(delta) == 0.0
  {
    MergeSum(o.tax, delta);
  }

  /** `removeItems` zeroes total but keeps the discount, so the result is balanced only without a discount. */
  lemma RemoveItemsBalance(o: Order)
    ensures Balanced(RemoveItems(o)) <==> o.discount == 0.0
  {
    var r := RemoveItems(o);
    SumOfZeros(r.tax);
    SumOfZeros(r.shippingTax);
  }

  /** Replaying items keeps the balance. */
  lemma ReplayKeepsBalance(o: Order, items: seq<Item>)
    requires Valid(o.tax) && Balanced(o)
    ensures Balanced(ReplayItems(o, items))
  {
    ReplayItemsTax(o, items);
  }

  /**
   * On a balanced order, the total `restoreState` recomputes from a snapshot
   * that sets no figures is the total `addItem` reaches incrementally by
   * adding the snapshot's items.
   */
  lemma RestoreAgreesWithAddItem(o: Order, s: State)
    requires Valid(o.tax) && Balanced(o)
    requires s.subtotal.None? && s.discount.None? && s.shippingTax.None?
    ensures RestoreState(o, s).total == ReplayItems(o, ItemsOf(s)).total
  {
    ReplayItemsTax(o, ItemsOf(s));
  }
}

=== FILE: order_items.dfy ===
/**
 * The line items of an order (Order.php:207-275 and 524-549). Every change
 * to the items moves productSubtotal, subtotal, total and the tax ledger by
 * the item's contribution instead of recomputing them.
 */
module OrderItems {
  import opened Results
  import opened PhpArrays
  import opened Money
  import opened Ledgers
  import opened OrderTypes
  import opened OrderShipping

  /**
   * `getItem`: the item filed under `key`. A missing key raises in strict
   * mode; in lenient mode the source logs a warning and returns null.
   */
  function GetItem(o: Order, key: ItemKey, mode: Mode): (r: Result<Option<Item>, OrderError>)
    ensures key in o.items.values ==> r == Success(Some(o.items.values[key]))
    ensures key !in o.items.values && mode == Strict ==> r == Failure(NoSuchItem(key))
    ensures key !in o.items.values && mode == Lenient ==> r == Success(None)
  {
    match Get(o.items, key)
    case Some(item) => Success(Some(item))
    case None => if mode == Strict then Failure(NoSuchItem(key)) else Success(None)
  }

  /**
   * `addItem`: file the item under its key (overwriting any item already
   * there), add its cost to productSubtotal and subtotal, cost plus tax to
   * total, each class's per-unit tax times quantity to the tax ledger, and
   * drop the cached total tax.
   */
  function AddItem(o: Order, item: Item): (r: Order)
    ensures Get(r.items, item.key) == Some(item)
    ensures forall k :: k != item.key ==> Get(r.items, k) == Get(o.items, k)
    ensures r.productSubtotal == o.productSubtotal + Cost(item)
    ensures r.subtotal == o.subtotal + Cost(item)
    ensures r.total == o.total + Cost(item) + TotalTax(item)
    ensures r.totalTax == None
    ensures WellFormed(o) ==> WellFormed(r)
    ensures WellFormed(o) && Covers(o.tax, item.tax.keys) ==> r.tax.keys == o.tax.keys
    ensures r == o.(items := r.items, productSubtotal := r.productSubtotal, subtotal := r.subtotal,
                    total := r.total, tax := r.tax, totalTax := None)
  {
    o.(items := Set(o.items, item.key, item),
       productSubtotal := o.productSubtotal + Cost(item),
       subtotal := o.subtotal + Cost(item),
       total := o.total + (Cost(item) + TotalTax(item)),
       tax := AddScaled(o.tax, item.tax, item.quantity),
       totalTax := None)
  }

  /** What `removeItem` hands back: the removed item and the order without it. */
  datatype Removal = Removal(item: Item, order: Order)

  /**
   * `removeItem`: look the item up under `key`, take its cost, tax and
   * per-class taxes back off, drop the cached total tax, and unset the entry
   * filed under the item's *id*. The source indexes without a presence check
   * and then calls a method on null, a fatal error in every mode; here that
   * is the `NoSuchItem` failure, with the order untouched.
   */
  function RemoveItem(o: Order, key: ItemKey): (r: Result<Removal, OrderError>)
    ensures r.Failure? <==> key !in o.items.values
    ensures r.Failure? ==> r.error == NoSuchItem(key)
    ensures r.Success? ==>
      var item, o' := r.value.item, r.value.order;
      && Get(o.items, key) == Some(item)
      && o'.productSubtotal == o.productSubtotal - Cost(item)
      && o'.subtotal == o.subtotal - Cost(item)
      && o'.total == o.total - (Cost(item) + TotalTax(item))
      && o'.totalTax == None
      && Get(o'.items, item.id) == None
      && (forall k :: k != item.id ==> Get(o'.items, k) == Get(o.items, k))
      && (WellFormed(o) ==> WellFormed(o'))
      && o' == o.(items := o'.items, productSubtotal := o'.productSubtotal, subtotal := o'.subtotal,
                  total := o'.total, tax := o'.tax, totalTax := None)
  {
    match Get(o.items, key)
    case None => Failure(NoSuchItem(key))
    case Some(item) =>
      Success(Removal(item, o.(productSubtotal := o.productSubtotal - Cost(item),
                               subtotal := o.subtotal - Cost(item),
                               total := o.total - (Cost(item) + TotalTax(item)),
                               tax := SubtractScaled(o.tax, item.tax, item.quantity),
                               totalTax := None,
                               items := Unset(o.items, item.id))))
  }

  /**
   * `removeItems`: remove the shipping method, then drop every item and zero
   * productSubtotal, subtotal, total and every tax class. The discount stays.
   */
  function RemoveItems(o: Order): (r: Order)
    ensures r.items == Empty()
    ensures r.productSubtotal == 0.0 && r.subtotal == 0.0 && r.total == 0.0
    ensures r.tax.keys == o.tax.keys && forall c :: Amount(r.tax, c) == 0.0
    ensures r.shippingTax.keys == o.shippingTax.keys && forall c :: Amount(r.shippingTax, c) == 0.0
    ensures r.shippingMethod == None && r.shippingPrice == 0.0 && r.totalTax == None
    ensures WellFormed(o) ==> WellFormed(r)
    ensures r == o.(items := Empty(), productSubtotal := 0.0, subtotal := 0.0, total := 0.0, tax := r.tax,
                    totalTax := None, shippingMethod := None, shippingPrice := 0.0,
                    shippingTax := r.shippingTax)
  {
    var s := RemoveShippingMethod(o);
    s.(items := Empty(), productSubtotal := 0.0, subtotal := 0.0, total := 0.0,
       tax := Zeroed(s.tax), totalTax := None)
  }

  /** A quantity as `updateQuantity` receives it: a number, or something `is_numeric` rejects. */
  datatype Quantity = Numeric(value: int) | NotNumeric

  /** The rate the tax service currently quotes for each of the product's tax classes. */
  function LiveRates(ts: TaxService, product: Product): Amounts {
    map c | c in product.taxClasses :: ts.get(product, c)
  }

  /**
   * The positive-quantity branch of `updateQuantity` for the item `item`
   * filed under `key`, as intended: reading `getPrice() + getTax()` as the
   * price plus the per-unit tax of all classes, move total by that times the
   * difference in quantity, subtotal and productSubtotal by the price times
   * the difference, each of the product's tax classes by the *live* rate
   * times the difference, store the new quantity, and drop the cached total
   * tax, as every other change of the tax ledger does.
   */
  function Resize(o: Order, key: ItemKey, item: Item, quantity: int, ts: TaxService): (r: Order)
    ensures r.productSubtotal == o.productSubtotal + Times(item.price, quantity - item.quantity)
    ensures r.subtotal == o.subtotal + Times(item.price, quantity - item.quantity)
    ensures r.total == o.total + Times(item.price + Sum(item.tax), quantity - item.quantity)
    ensures Get(r.items, key) == Some(item.(quantity := quantity))
    ensures forall k :: k != key ==> Get(r.items, k) == Get(o.items, k)
    ensures r.totalTax == None
    ensures WellFormed(o) ==> WellFormed(r)
    ensures r == o.(productSubtotal := r.productSubtotal, subtotal := r.subtotal,
                    total := r.total, tax := r.tax, items := r.items, totalTax := None)
  {
    var d := quantity - item.quantity;
    AddEachKeeps(o.tax, item.product.taxClasses, Scale(LiveRates(ts, item.product), d));
    o.(total := o.total + Times(item.price + Sum(item.tax), d),
       subtotal := o.subtotal + Times(item.price, d),
       productSubtotal := o.productSubtotal + Times(item.price, d),
       tax := AddEach(o.tax, item.product.taxClasses, Scale(LiveRates(ts, item.product), d)),
       items := Set(o.items, key, item.(quantity := quantity)),
       totalTax := None)
  }

  /**
   * The same branch with line 542 corrected but the cache left alone, as
   * lines 543-548 leave it: every figure moves as in `Resize`, but the
   * cached total tax keeps its old value although the tax ledger changed.
   * As written the branch never gets this far, because line 542 fails first
   * (`UpdateQuantityAsWritten`); the stale cache is latent and appears once
   * line 542 is fixed.
   */
  function ResizeKeepingCache(o: Order, key: ItemKey, item: Item, quantity: int, ts: TaxService): (r: Order)
    ensures r.totalTax == o.totalTax
    ensures r.(totalTax := None) == Resize(o, key, item, quantity, ts)
  {
    Resize(o, key, item, quantity, ts).(totalTax := o.totalTax)
  }

  /**
   * `updateQuantity` exactly as written: fail on a missing key, then on a
   * non-numeric quantity; a quantity of zero or less removes the item. For
   * a positive quantity the source adds the item's tax *array* to its price,
   * which PHP rejects with a fatal error before anything changes.
   */
  function UpdateQuantityAsWritten(o: Order, key: ItemKey, quantity: Quantity): (r: Result<Order, OrderError>)
    ensures key !in o.items.values ==> r == Failure(NoSuchItem(key))
    ensures key in o.items.values && quantity.NotNumeric? ==> r == Failure(QuantityNotNumeric)
    ensures key in o.items.values && quantity.Numeric? && quantity.value <= 0 ==>
      RemoveItem(o, key).Success? && r == Success(RemoveItem(o, key).value.order)
    ensures key in o.items.values && quantity.Numeric? && quantity.value > 0 ==> r == Failure(UnsupportedOperands)
  {
    match Get(o.items, key)
    case None => Failure(NoSuchItem(key))
    case Some(item) =>
      if quantity.NotNumeric? then Failure(QuantityNotNumeric)
      else if quantity.value <= 0 then
        match RemoveItem(o, key)
        case Success(removal) => Success(removal.order)
        case Failure(e) => Failure(e)
      else Failure(UnsupportedOperands)
  }

  /**
   * `updateQuantity` as intended: the same checks and removal, and for a
   * positive quantity the `Resize` of the item filed under `key`.
   */
  function UpdateQuantity(o: Order, key: ItemKey, quantity: Quantity, ts: TaxService): (r: Result<Order, OrderError>)
    ensures r.Failure? <==> key !in o.items.values || quantity.NotNumeric?
    ensures key !in o.items.values ==> r == Failure(NoSuchItem(key))
    ensures key in o.items.values && quantity.NotNumeric? ==> r == Failure(QuantityNotNumeric)
    ensures key in o.items.values && quantity.Numeric? && quantity.value <= 0 ==>
      r == UpdateQuantityAsWritten(o, key, quantity)
    ensures key in o.items.values && quantity.Numeric? && quantity.value > 0 ==>
      r == Success(Resize(o, key, o.items.values[key], quantity.value, ts))
    ensures r.Success? ==> r.value.totalTax == None
  {
    match Get(o.items, key)
    case None => Failure(NoSuchItem(key))
    case Some(item) =>
      if quantity.NotNumeric? then Failure(QuantityNotNumeric)
      else if quantity.value <= 0 then
        match RemoveItem(o, key)
        case Success(removal) => Success(removal.order)
        case Failure(e) => Failure(e)
      else Success(Resize(o, key, item, quantity.value, ts))
  }

  /**
   * For an item in the order and a positive quantity, the source as written
   * always fails, while the corrected operation stores the new quantity and
   * moves productSubtotal and subtotal by the price times the difference.
   */
  lemma UpdateQuantityPositive(o: Order, key: ItemKey, quantity: int, ts: TaxService)
    requires key in o.items.values && quantity > 0
    ensures UpdateQuantityAsWritten(o, key, Numeric(quantity)) == Failure(UnsupportedOperands)
    ensures var r := UpdateQuantity(o, key, Numeric(quantity), ts);
      var item := o.items.values[key];
      && r.Success?
      && Get(r.value.items, key) == Some(item.(quantity := quantity))
      && r.value.productSubtotal == o.productSubtotal + Times(item.price, quantity - item.quantity)
      && r.value.subtotal == o.subtotal + Times(item.price, quantity - item.quantity)
  {
  }

  /**
   * Adding an item raises the tax ledger's sum by the item's total tax, and
   * each class by the item's per-unit tax in that class times its quantity.
   */
  lemma AddItemTaxes(o: Order, item: Item)
    requires Valid(o.tax)
    ensures Sum(AddItem(o, item).tax) == Sum(o.tax) + TotalTax(item)
    ensures Valid(item.tax) ==> forall c :: (Amount(AddItem(o, item).tax, c) ==
      Amount(o.tax, c) + Times(Amount(item.tax, c), item.quantity))
  {
    SumAddScaled(o.tax, item.tax, item.quantity);
    if Valid(item.tax) {
      forall c ensures Amount(AddItem(o, item).tax, c) == Amount(o.tax, c) + Times(Amount(item.tax, c), item.quantity) {
        AmountAddScaled(o.tax, item.tax, item.quantity, c);
      }
    }
  }

  /** Removing an item takes exactly its total tax, and its per-class taxes, back off the ledger. */
  lemma RemoveItemTaxes(o: Order, key: ItemKey)
    requires key in o.items.values && Valid(o.tax)
    ensures var r := RemoveItem(o, key).value;
      Sum(r.order.tax) == Sum(o.tax) - TotalTax(r.item)
    ensures var r := RemoveItem(o, key).value;
      Valid(r.item.tax) ==> forall c :: (Amount(r.order.tax, c) ==
        Amount(o.tax, c) - Times(Amount(r.item.tax, c), r.item.quantity))
  {
    var r := RemoveItem(o, key).value;
    var item := r.item;
    SumSubtractScaled(o.tax, item.tax, item.quantity);
    if Valid(item.tax) {
      forall c ensures Amount(r.order.tax, c) == Amount(o.tax, c) - Times(Amount(item.tax, c), item.quantity) {
        AmountSubtractScaled(o.tax, item.tax, item.quantity, c);
      }
    }
  }

  /**
   * The tax ledger after a quantity change, as the `+=` loop over the
   * product's classes leaves it, for the product's classes `classes`, the
   * live rates `rates` and the change in quantity `d`.
   */
  lemma ResizedTax(o: Order, key: ItemKey, item: Item, quantity: int, ts: TaxService,
                   classes: seq<TaxClass>, rates: Amounts, d: int)
    requires classes == item.product.taxClasses && rates == LiveRates(ts, item.product)
    requires d == quantity - item.quantity
    ensures Resize(o, key, item, quantity, ts).tax == AddEach(o.tax, classes, Scale(rates, d))
  {
  }

  /**
   * A quantity change moves the tax ledger's sum by the rates the tax
   * service quotes now for the product's classes, times the change in
   * quantity, whatever per-unit tax the item was added with.
   */
  lemma ResizeTaxSum(o: Order, key: ItemKey, item: Item, quantity: int, ts: TaxService)
    requires Valid(o.tax)
    ensures Sum(Resize(o, key, item, quantity, ts).tax) ==
      Sum(o.tax) + Times(Total(item.product.taxClasses, LiveRates(ts, item.product)), quantity - item.quantity)
  {
    var d := quantity - item.quantity;
    var rates := LiveRates(ts, item.product);
    var t := AddEach(o.tax, item.product.taxClasses, Scale(rates, d));
    ResizedTax(o, key, item, quantity, ts, item.product.taxClasses, rates, d);
    assert Sum(t) == Sum(o.tax) + Times(Total(item.product.taxClasses, rates), d) by {
      SumAddEach(o.tax, item.product.taxClasses, Scale(rates, d));
      TotalScale(item.product.taxClasses, rates, d);
    }
  }

  /**
   * A quantity change moves each tax class by the rate quoted now times the
   * change in quantity, once for every time the product lists the class.
   */
  lemma ResizeTaxAmount(o: Order, key: ItemKey, item: Item, quantity: int, ts: TaxService, c: TaxClass)
    ensures Amount(Resize(o, key, item, quantity, ts).tax, c) ==
      Amount(o.tax, c) + Times(Times(At(LiveRates(ts, item.product), c), quantity - item.quantity), Count(item.product.taxClasses, c))
  {
    var d := quantity - item.quantity;
    var scaled := Scale(LiveRates(ts, item.product), d);
    var t := AddEach(o.tax, item.product.taxClasses, scaled);
    ResizedTax(o, key, item, quantity, ts, item.product.taxClasses, LiveRates(ts, item.product), d);
    assert Amount(t, c) == Amount(o.tax, c) + Times(At(scaled, c), Count(item.product.taxClasses, c)) by {
      AmountAddEach(o.tax, item.product.taxClasses, scaled, c);
    }
    assert At(scaled, c) == Times(At(LiveRates(ts, item.product), c), d) by {
      if c !in scaled {
        TimesZero(d);
      }
    }
  }

  /**
   * Adding an item whose id is its key under a fresh key and removing it
   * again hands the item back and restores every figure and the items; only
   * the total-tax cache stays cleared.
   */
  lemma AddThenRemoveItem(o: Order, item: Item)
    requires item.id == item.key && item.key !in o.items.values
    requires WellFormed(o) && Covers(o.tax, item.tax.keys)
    ensures RemoveItem(AddItem(o, item), item.key) == Success(Removal(item, o.(totalTax := None)))
  {
    var added := AddItem(o, item);
    SubtractScaledCancels(o.tax, item.tax, item.quantity);
    UnsetAppended(o.items, item.key, item);
    var r := RemoveItem(added, item.key);
    assert r.value.order.tax == o.tax;
    assert r.value.order.items == o.items;
  }

  /**
   * The same round trip without assumptions on the order's arrays:
   * productSubtotal, subtotal, total and every tax class come back.
   */
  lemma AddThenRemoveItemAmounts(o: Order, item: Item)
    requires item.id == item.key
    ensures var r := RemoveItem(AddItem(o, item), item.key);
      && r.Success? && r.value.item == item
      && r.value.order.productSubtotal == o.productSubtotal
      && r.value.order.subtotal == o.subtotal
      && r.value.order.total == o.total
      && forall c :: Amount(r.value.order.tax, c) == Amount(o.tax, c)
  {
    forall c ensures Amount(SubtractScaled(AddScaled(o.tax, item.tax, item.quantity), item.tax, item.quantity), c) == Amount(o.tax, c) {
      SubtractScaledCancelsPointwise(o.tax, item.tax, item.quantity, c);
    }
  }

  /** Looking up the key an item was just added under finds that item, in either mode. */
  lemma GetItemAfterAddItem(o: Order, item: Item, mode: Mode)
    ensures GetItem(AddItem(o, item), item.key, mode) == Success(Some(item))
  {
  }

  /**
   * After removing an item filed under its id, looking up its key misses:
   * an error in strict mode, null in lenient mode.
   */
  lemma GetItemAfterRemoveItem(o: Order, key: ItemKey, mode: Mode)
    requires key in o.items.values && o.items.values[key].id == key
    ensures var r := RemoveItem(o, key);
      && r.Success?
      && GetItem(r.value.order, key, mode) == (if mode == Strict then Failure(NoSuchItem(key)) else Success(None))
  {
  }

  /**
   * When an item's id differs from the key it is filed under, `removeItem`
   * takes its figures off the order but leaves the entry in place, so a
   * second removal takes them off again.
   */
  lemma RemoveItemKeepsEntryWhenIdDiffers(o: Order, key: ItemKey)
    requires key in o.items.values && o.items.values[key].id != key
    ensures var item := o.items.values[key];
      var once := RemoveItem(o, key);
      && once.Success? && Get(once.value.order.items, key) == Some(item)
      && var twice := RemoveItem(once.value.order, key);
      && twice.Success? && twice.value.item == item
      && twice.value.order.productSubtotal == o.productSubtotal - Cost(item) - Cost(item)
  {
  }

  /** Changing the quantity and changing it back takes every tax class back to where it was. */
  lemma ResizeBackTax(o: Order, key: ItemKey, item: Item, quantity: int, ts: TaxService)
    requires Valid(o.tax) && Covers(o.tax, item.product.taxClasses)
    ensures Resize(Resize(o, key, item, quantity, ts), key, item.(quantity := quantity), item.quantity, ts).tax == o.tax
  {
    var d := quantity - item.quantity;
    var classes := item.product.taxClasses;
    var rates := LiveRates(ts, item.product);
    var there := Resize(o, key, item, quantity, ts);
    ResizedTax(o, key, item, quantity, ts, classes, rates, d);
    ResizedTax(there, key, item.(quantity := quantity), item.quantity, ts, classes, rates, -d);
    AddEachOppositeCancels(o.tax, classes, rates, d);
  }

  /** Changing the quantity and changing it back restores the three figures it moves. */
  lemma ResizeBackFigures(o: Order, key: ItemKey, item: Item, quantity: int, ts: TaxService)
    ensures var back := Resize(Resize(o, key, item, quantity, ts), key, item.(quantity := quantity), item.quantity, ts);
      back.total == o.total && back.subtotal == o.subtotal && back.productSubtotal == o.productSubtotal
  {
    TimesOpposite(item.price + Sum(item.tax), quantity - item.quantity);
    TimesOpposite(item.price, quantity - item.quantity);
  }

  /**
   * Changing an item's quantity and changing it back gives back the very
   * same order, but for the dropped total-tax cache, provided the product
   * only names classes the tax ledger holds.
   */
  lemma ResizeBackAndForth(o: Order, key: ItemKey, quantity: int, ts: TaxService)
    requires WellFormed(o) && key in o.items.values
    requires Covers(o.tax, o.items.values[key].product.taxClasses)
    ensures var item := o.items.values[key];
      var there := Resize(o, key, item, quantity, ts);
      Resize(there, key, item.(quantity := quantity), item.quantity, ts) == o.(totalTax := None)
  {
    var item := o.items.values[key];
    ResizeBackTax(o, key, item, quantity, ts);
    ResizeBackFigures(o, key, item, quantity, ts);
    SetTwice(o.items, key, item.(quantity := quantity), item);
    SetSame(o.items, key, item);
  }
}

=== FILE: order_shipping.dfy ===
/**
 * The shipping selection of an order (Order.php:313-338): choosing a method
 * first reverses the previous selection, then adds the method's price to the
 * subtotal, price plus shipping tax to the total, and records each of the
 * method's tax classes in the shipping-tax ledger.
 */
module OrderShipping {
  import opened Results
  import opened PhpArrays
  import opened Ledgers
  import opened OrderTypes

  /**
   * `removeShippingMethod`: take the price off the subtotal, price and
   * shipping tax off the total, forget the method, and zero the shipping-tax
   * ledger while keeping its classes.
   */
  function RemoveShippingMethod(o: Order): (r: Order)
    ensures r.subtotal == o.subtotal - o.shippingPrice
    ensures r.total == o.total - (o.shippingPrice + Sum(o.shippingTax))
    ensures r.shippingMethod == None && r.shippingPrice == 0.0
    ensures r.shippingTax.keys == o.shippingTax.keys && r.shippingTax.values.Keys == o.shippingTax.values.Keys
    ensures forall c :: Amount(r.shippingTax, c) == 0.0
    ensures WellFormed(o) ==> WellFormed(r)
    ensures r == o.(subtotal := r.subtotal, total := r.total, shippingMethod := None,
                    shippingPrice := 0.0, shippingTax := r.shippingTax)
  {
    o.(subtotal := o.subtotal - o.shippingPrice,
       total := o.total - (o.shippingPrice + Sum(o.shippingTax)),
       shippingMethod := None,
       shippingPrice := 0.0,
       shippingTax := Zeroed(o.shippingTax))
  }

  /** The order the method's `calculate` is shown: previous selection removed, new method set. */
  function Quoting(o: Order, m: ShippingMethod): Order {
    RemoveShippingMethod(o).(shippingMethod := Some(m))
  }

  /** What the tax service quotes for each of the method's tax classes. */
  function ShippingQuotes(ts: TaxService, m: ShippingMethod, price: real, customer: Customer): Amounts {
    map c | c in m.taxClasses :: ts.getShipping(m, price, c, customer)
  }

  /**
   * The tax service is coherent for this method and price: the method names
   * each tax class once, and the total shipping tax it quotes is the sum of
   * its per-class quotes.
   */
  predicate ShippingTaxAgrees(ts: TaxService, m: ShippingMethod, price: real, customer: Customer) {
    && NoDuplicates(m.taxClasses)
    && ts.calculateShipping(m, price, customer) == Total(m.taxClasses, ShippingQuotes(ts, m, price, customer))
  }

  /** `setShippingMethod`, with the method's `calculate` given as `pricing`. */
  function SetShippingMethod(o: Order, m: ShippingMethod, pricing: (ShippingMethod, Order) -> real,
                             ts: TaxService): (r: Order)
    ensures r.shippingMethod == Some(m)
    ensures r.shippingPrice == pricing(m, Quoting(o, m))
    ensures r.subtotal == o.subtotal - o.shippingPrice + r.shippingPrice
    ensures r.total == o.total - (o.shippingPrice + Sum(o.shippingTax))
                      + (r.shippingPrice + ts.calculateShipping(m, r.shippingPrice, o.customer))
    ensures forall c :: (Amount(r.shippingTax, c) ==
      if c in m.taxClasses then ts.getShipping(m, r.shippingPrice, c, o.customer) else 0.0)
    ensures WellFormed(o) ==> WellFormed(r)
    ensures WellFormed(o) && Covers(o.shippingTax, m.taxClasses) ==> r.shippingTax.keys == o.shippingTax.keys
    ensures r == o.(subtotal := r.subtotal, total := r.total, shippingMethod := Some(m),
                    shippingPrice := r.shippingPrice, shippingTax := r.shippingTax)
  {
    var cleared := Quoting(o, m);
    var price := pricing(m, cleared);
    var quotes := ShippingQuotes(ts, m, price, o.customer);
    forall c ensures Amount(SetEach(cleared.shippingTax, m.taxClasses, quotes), c) ==
      if c in m.taxClasses then ts.getShipping(m, price, c, o.customer) else 0.0
    {
      AmountSetEach(cleared.shippingTax, m.taxClasses, quotes, c);
    }
    cleared.(shippingPrice := price,
             subtotal := cleared.subtotal + price,
             total := cleared.total + (price + ts.calculateShipping(m, price, o.customer)),
             shippingTax := SetEach(cleared.shippingTax, m.taxClasses, quotes))
  }

  /** Removing the shipping method a second time changes nothing. */
  lemma RemoveShippingIdempotent(o: Order)
    ensures RemoveShippingMethod(RemoveShippingMethod(o)) == RemoveShippingMethod(o)
  {
    var once := RemoveShippingMethod(o);
    SumOfZeros(once.shippingTax);
    assert Zeroed(once.shippingTax) == once.shippingTax;
  }

  /**
   * With a coherent tax service, selecting a method keeps
   * total - subtotal - Sum(shippingTax) unchanged: the price enters subtotal
   * and total alike, and the tax added to the total is what the ledger records.
   */
  lemma SetShippingKeepsBalance(o: Order, m: ShippingMethod, pricing: (ShippingMethod, Order) -> real,
                                ts: TaxService)
    requires Valid(o.shippingTax)
    requires ShippingTaxAgrees(ts, m, pricing(m, Quoting(o, m)), o.customer)
    ensures var r := SetShippingMethod(o, m, pricing, ts);
      r.total - r.subtotal - Sum(r.shippingTax) == o.total - o.subtotal - Sum(o.shippingTax)
  {
    var cleared := Quoting(o, m);
    var price := pricing(m, cleared);
    SumOfZeros(cleared.shippingTax);
    SumSetEachOntoZeros(cleared.shippingTax, m.taxClasses, ShippingQuotes(ts, m, price, o.customer));
  }

  /**
   * Selecting a method and removing it again ends where removing alone ends,
   * provided the tax service is coherent and the method only names classes
   * the shipping-tax ledger already holds.
   */
  lemma SetThenRemoveShipping(o: Order, m: ShippingMethod, pricing: (ShippingMethod, Order) -> real,
                              ts: TaxService)
    requires WellFormed(o)
    requires ShippingTaxAgrees(ts, m, pricing(m, Quoting(o, m)), o.customer)
    requires Covers(o.shippingTax, m.taxClasses)
    ensures RemoveShippingMethod(SetShippingMethod(o, m, pricing, ts)) == RemoveShippingMethod(o)
  {
    var chosen := SetShippingMethod(o, m, pricing, ts);
    SetShippingKeepsBalance(o, m, pricing, ts);
    assert chosen.shippingTax.values.Keys == o.shippingTax.values.Keys;
    assert Zeroed(chosen.shippingTax) == Zeroed(o.shippingTax);
  }

  /**
   * On an order without shipping, selecting a method (coherent tax service)
   * and removing it restores subtotal and total and leaves every shipping
   * tax at zero, whatever classes the method names.
   */
  lemma SetThenRemoveRestoresTotals(o: Order, m: ShippingMethod, pricing: (ShippingMethod, Order) -> real,
                                    ts: TaxService)
    requires o.shippingPrice == 0.0 && Sum(o.shippingTax) == 0.0
    requires Valid(o.shippingTax)
    requires ShippingTaxAgrees(ts, m, pricing(m, Quoting(o, m)), o.customer)
    ensures var r := RemoveShippingMethod(SetShippingMethod(o, m, pricing, ts));
      && r.subtotal == o.subtotal && r.total == o.total
      && r.shippingPrice == 0.0 && r.shippingMethod == None
      && forall c :: Amount(r.shippingTax, c) == 0.0
  {
    SetShippingKeepsBalance(o, m, pricing, ts);
  }
}

=== FILE: order_state.dfy ===
/**
 * Saving and restoring an order (Order.php:554-636). `restoreState` takes a
 * flat snapshot, overwrites each field the snapshot sets, replays the
 * snapshot's items through `addItem`, adds the snapshot's shipping tax onto
 * the shipping-tax ledger, and finally recomputes total from subtotal, the
 * two ledgers and the discount, whatever total the snapshot carried.
 */
module OrderState {
  import opened Results
  import opened PhpArrays
  import opened Money
  import opened Ledgers
  import opened OrderTypes
  import opened OrderItems

  /** The `customer` entry: `false` when none was stored, or the customer. */
  datatype StoredCustomer = StoredFalse | Stored(customer: Customer)

  /** The `shipping` entry: an array of method and price, or some non-array value. */
  datatype StoredShipping = ShippingArray(chosen: Option<ShippingMethod>, price: real) | NotAnArray

  /**
   * A snapshot: each entry is `None` when the key is absent or null, which
   * is when `isset` is false. `total`, `id` and `update_messages` are saved
   * but never read back.
   */
  datatype State = State(
    id: Option<int>,
    number: Option<string>,
    status: Option<Status>,
    items: Option<seq<Item>>,
    customer: Option<StoredCustomer>,
    shipping: Option<StoredShipping>,
    payment: Option<string>,
    customerNote: Option<string>,
    shippingTax: Option<Ledger>,
    productSubtotal: Option<real>,
    subtotal: Option<real>,
    discount: Option<real>,
    total: Option<real>,
    updateMessages: Option<seq<StatusChange>>)

  /** PHP's `empty` on a string: the empty string and "0". */
  predicate EmptyString(s: string) {
    s == "" || s == "0"
  }

  /** The items a snapshot carries, none when it has no `items` entry. */
  function ItemsOf(s: State): seq<Item> {
    s.items.GetOr([])
  }

  /** The items' costs added up. */
  function CostOf(items: seq<Item>): real {
    if |items| == 0 then 0.0 else Cost(items[0]) + CostOf(items[1..])
  }

  /** The items' total taxes added up. */
  function TaxOf(items: seq<Item>): real {
    if |items| == 0 then 0.0 else TotalTax(items[0]) + TaxOf(items[1..])
  }

  /**
   * The last of `items` whose key is `k`, if any: `addItem` overwrites by
   * key, so a replay leaves this one filed under `k`.
   */
  function LastFiled(items: seq<Item>, k: ItemKey): (r: Option<Item>)
    ensures r.Some? ==> r.value in items && r.value.key == k
    ensures r.None? <==> forall i :: 0 <= i < |items| ==> items[i].key != k
  {
    if |items| == 0 then None
    else
      var later := LastFiled(items[1..], k);
      if later.Some? then later
      else if items[0].key == k then Some(items[0])
      else None
  }

  /**
   * `foreach ($items as $item) $this->addItem($item);`: each key ends up
   * holding the last replayed item filed under it, and a key no replayed item
   * names keeps its entry; the item figures move by the items' costs and
   * taxes; everything else but the items, the tax ledger and the cache stays.
   */
  function ReplayItems(o: Order, items: seq<Item>): (r: Order)
    ensures forall k :: Get(r.items, k) == if LastFiled(items, k).Some? then LastFiled(items, k) else Get(o.items, k)
    ensures r.productSubtotal == o.productSubtotal + CostOf(items)
    ensures r.subtotal == o.subtotal + CostOf(items)
    ensures r.total == o.total + CostOf(items) + TaxOf(items)
    ensures r.totalTax == if |items| == 0 then o.totalTax else None
    ensures WellFormed(o) ==> WellFormed(r)
    ensures r == o.(items := r.items, productSubtotal := r.productSubtotal, subtotal := r.subtotal,
                    total := r.total, tax := r.tax, totalTax := r.totalTax)
    decreases |items|
  {
    if |items| == 0 then o else ReplayItems(AddItem(o, items[0]), items[1..])
  }

  /** Replaying items moves the tax ledger's sum by the items' total taxes. */
  lemma {:induction false} ReplayItemsTax(o: Order, items: seq<Item>)
    requires Valid(o.tax)
    ensures Sum(ReplayItems(o, items).tax) == Sum(o.tax) + TaxOf(items)
    decreases |items|
  {
    if |items| > 0 {
      AddItemTaxes(o, items[0]);
      AddEachKeeps(o.tax, items[0].tax.keys, Scale(items[0].tax.values, items[0].quantity));
      ReplayItemsTax(AddItem(o, items[0]), items[1..]);
    }
  }

  /** Replaying items neither reads nor writes the number or the status. */
  lemma {:induction false} ReplayIgnoresHeader(o: Order, items: seq<Item>, number: Option<string>, status: Status)
    ensures ReplayItems(o.(number := number, status := status), items) ==
      ReplayItems(o, items).(number := number, status := status)
    decreases |items|
  {
    if |items| > 0 {
      assert AddItem(o.(number := number, status := status), items[0]) ==
        AddItem(o, items[0]).(number := number, status := status);
      ReplayIgnoresHeader(AddItem(o, items[0]), items[1..], number, status);
    }
  }

  /** The first steps of `restoreState`: the number and the status, when the snapshot sets them. */
  function RestoreHeader(o: Order, s: State): (r: Order)
    ensures r.status == s.status.GetOr(o.status)
    ensures r.number == if s.number.Some? then s.number else o.number
    ensures r == o.(number := r.number, status := r.status)
  {
    var numbered := if s.number.Some? then o.(number := s.number) else o;
    if s.status.Some? then numbered.(status := s.status.value) else numbered
  }

  /**
   * The steps after the items: the customer unless it was stored as
   * `false`, the shipping method and price when the entry is an array, the
   * payment method unless it is empty, and the customer note.
   */
  function RestoreParties(o: Order, s: State): (r: Order)
    ensures r.customer == if s.customer.Some? && s.customer.value.Stored? then s.customer.value.customer else o.customer
    ensures s.shipping.Some? && s.shipping.value.ShippingArray? ==>
      r.shippingMethod == s.shipping.value.chosen && r.shippingPrice == s.shipping.value.price
    ensures !(s.shipping.Some? && s.shipping.value.ShippingArray?) ==>
      r.shippingMethod == o.shippingMethod && r.shippingPrice == o.shippingPrice
    ensures r.paymentMethod == if s.payment.Some? && !EmptyString(s.payment.value) then s.payment else o.paymentMethod
    ensures r.customerNote == if s.customerNote.Some? then s.customerNote else o.customerNote
    ensures r == o.(customer := r.customer, shippingMethod := r.shippingMethod, shippingPrice := r.shippingPrice,
                    paymentMethod := r.paymentMethod, customerNote := r.customerNote)
  {
    var customered := if s.customer.Some? && s.customer.value.Stored? then o.(customer := s.customer.value.customer) else o;
    var shipped :=
      if s.shipping.Some? && s.shipping.value.ShippingArray? then
        customered.(shippingMethod := s.shipping.value.chosen, shippingPrice := s.shipping.value.price)
      else customered;
    var paid := if s.payment.Some? && !EmptyString(s.payment.value) then shipped.(paymentMethod := s.payment) else shipped;
    if s.customerNote.Some? then paid.(customerNote := s.customerNote) else paid
  }

  /**
   * The last steps: add the snapshot's shipping tax onto the ledger, take
   * productSubtotal, subtotal and discount from the snapshot when it sets
   * them, and recompute total.
   */
  function RestoreFigures(o: Order, s: State): (r: Order)
    ensures r.total == r.subtotal + Sum(r.tax) + Sum(r.shippingTax) - r.discount
    ensures r.shippingTax == if s.shippingTax.Some? then Merge(o.shippingTax, s.shippingTax.value) else o.shippingTax
    ensures r.productSubtotal == s.productSubtotal.GetOr(o.productSubtotal)
    ensures r.subtotal == s.subtotal.GetOr(o.subtotal)
    ensures r.discount == s.discount.GetOr(o.discount)
    ensures r == o.(shippingTax := r.shippingTax, productSubtotal := r.productSubtotal, subtotal := r.subtotal,
                    discount := r.discount, total := r.total)
  {
    var taxed := if s.shippingTax.Some? then o.(shippingTax := Merge(o.shippingTax, s.shippingTax.value)) else o;
    var figured := taxed.(productSubtotal := s.productSubtotal.GetOr(taxed.productSubtotal),
                          subtotal := s.subtotal.GetOr(taxed.subtotal),
                          discount := s.discount.GetOr(taxed.discount));
    figured.(total := figured.subtotal + Sum(figured.tax) + Sum(figured.shippingTax) - figured.discount)
  }

  /** `restoreState($state)` */
  function RestoreState(o: Order, s: State): (r: Order)
    ensures r.total == r.subtotal + Sum(r.tax) + Sum(r.shippingTax) - r.discount
    ensures r.productSubtotal == s.productSubtotal.GetOr(o.productSubtotal + CostOf(ItemsOf(s)))
    ensures r.subtotal == s.subtotal.GetOr(o.subtotal + CostOf(ItemsOf(s)))
    ensures r.discount == s.discount.GetOr(o.discount)
    ensures r.items == ReplayItems(o, ItemsOf(s)).items && r.tax == ReplayItems(o, ItemsOf(s)).tax
    ensures r.totalTax == if |ItemsOf(s)| == 0 then o.totalTax else None
    ensures r.shippingTax == if s.shippingTax.Some? then Merge(o.shippingTax, s.shippingTax.value) else o.shippingTax
    ensures r.status == s.status.GetOr(o.status)
    ensures r.id == o.id && r.updateMessages == o.updateMessages
  {
    var header := RestoreHeader(o, s);
    var replayed := ReplayItems(header, ItemsOf(s));
    ReplayIgnoresHeader(o, ItemsOf(s), header.number, header.status);
    var parties := RestoreParties(replayed, s);
    assert parties.subtotal == o.subtotal + CostOf(ItemsOf(s));
    assert parties.productSubtotal == o.productSubtotal + CostOf(ItemsOf(s));
    RestoreFigures(parties, s)
  }

  /** `restoreState` reads no total from the snapshot. */
  lemma RestoreIgnoresSavedTotal(o: Order, s: State, total: Option<real>)
    ensures RestoreState(o, s.(total := total)) == RestoreState(o, s)
  {
  }

  /**
   * Restoring a snapshot that sets none of the figures gives the total the
   * recomputation makes of the replayed items: the old subtotal and tax plus
   * the items' costs and taxes, plus the shipping tax after the `+=`, less
   * the discount.
   */
  lemma RestoreTotalFromItems(o: Order, s: State)
    requires Valid(o.tax) && Valid(o.shippingTax)
    requires s.subtotal.None? && s.discount.None?
    ensures var r := RestoreState(o, s);
      r.total == o.subtotal + CostOf(ItemsOf(s)) + Sum(o.tax) + TaxOf(ItemsOf(s))
                 + Sum(o.shippingTax) + (if s.shippingTax.Some? then Sum(s.shippingTax.value) else 0.0)
                 - o.discount
  {
    ReplayItemsTax(o, ItemsOf(s));
    if s.shippingTax.Some? {
      MergeSum(o.shippingTax, s.shippingTax.value);
    }
  }

  /**
   * The snapshot's shipping tax is added onto the ledger rather than
   * written over it: restoring the same snapshot twice counts it twice.
   */
  lemma RestoreAddsShippingTax(o: Order, s: State, c: TaxClass)
    requires s.shippingTax.Some? && Valid(s.shippingTax.value)
    ensures var twice := RestoreState(RestoreState(o, s), s);
      Amount(twice.shippingTax, c) == Amount(o.shippingTax, c) + Times(Amount(s.shippingTax.value, c), 2)
  {
    var t := s.shippingTax.value;
    var once := RestoreState(o, s);
    MergeAmount(o.shippingTax, t, c);
    MergeAmount(once.shippingTax, t, c);
    TimesStep(Amount(t, c), 1);
    TimesStep(Amount(t, c), 0);
  }

  /**
   * Replaying the values of keys that are new to the order, each filed under
   * its own key, appends those keys in order and files each value under it.
   */
  lemma {:induction false} ReplayAppends(o: Order, ks: seq<ItemKey>, m: map<ItemKey, Item>)
    requires Valid(o.items) && NoDuplicates(ks)
    requires forall k :: k in ks ==> k in m && m[k].key == k && k !in o.items.values
    ensures var r := ReplayItems(o, ValuesOf(ks, m)).items;
      && r.keys == o.items.keys + ks
      && (forall k :: k in r.values <==> k in o.items.values || k in ks)
      && (forall k :: k in ks ==> r.values[k] == m[k])
      && (forall k :: k in o.items.values ==> r.values[k] == o.items.values[k])
    decreases |ks|
  {
    if |ks| > 0 {
      var k0 := ks[0];
      var next := AddItem(o, m[k0]);
      assert next.items == PhpArray(o.items.keys + [k0], o.items.values[k0 := m[k0]]);
      HeadNotInTail(ks);
      ReplayAppends(next, ks[1..], m);
      AppendHead(o.items.keys, ks);
      assert forall k :: k in ks <==> k == k0 || k in ks[1..];
    }
  }

  /**
   * `getStateToSave`: every field `restoreState` reads except
   * `product_subtotal`; the dates are left out of this model.
   */
  function GetStateToSave(o: Order): (s: State)
    ensures s.productSubtotal.None?
    ensures s.items == Some(Values(o.items)) && s.shippingTax == Some(o.shippingTax)
    ensures s.subtotal == Some(o.subtotal) && s.discount == Some(o.discount) && s.total == Some(o.total)
    ensures s.status == Some(o.status) && s.number == o.number && s.customer == Some(Stored(o.customer))
    ensures s.shipping == Some(ShippingArray(o.shippingMethod, o.shippingPrice))
  {
    State(o.id, o.number, Some(o.status), Some(Values(o.items)), Some(Stored(o.customer)),
          Some(ShippingArray(o.shippingMethod, o.shippingPrice)), o.paymentMethod, o.customerNote,
          Some(o.shippingTax), None, Some(o.subtotal), Some(o.discount), Some(o.total), Some(o.updateMessages))
  }

  /**
   * Saving an order and restoring the snapshot into a new order brings back
   * status, number, customer, shipping, subtotal and discount, but not
   * productSubtotal: that is rebuilt from the replayed items' costs,
   * whatever the saved order held.
   */
  lemma SaveThenRestore(o: Order, taxClasses: seq<TaxClass>)
    ensures var r := RestoreState(New(taxClasses), GetStateToSave(o));
      && r.status == o.status && r.number == o.number && r.customer == o.customer
      && r.shippingMethod == o.shippingMethod && r.shippingPrice == o.shippingPrice
      && r.subtotal == o.subtotal && r.discount == o.discount
      && r.productSubtotal == CostOf(Values(o.items))
  {
  }

  /** Replaying an array's items, each filed under its own key, into an order without items files the same array. */
  lemma ReplayRefiles(o: Order, a: Items)
    requires o.items.keys == [] && o.items.values == map[]
    requires Valid(a) && forall k :: k in a.values ==> a.values[k].key == k
    ensures ReplayItems(o, Values(a)).items == a
  {
    ReplayAppends(o, a.keys, a.values);
    SameArray(ReplayItems(o, Values(a)).items, a);
  }

  /**
   * When every item is filed under its own key, saving and restoring into a
   * new order brings the items back: the same keys in the same order, each
   * with the same item.
   */
  lemma SaveThenRestoreItems(o: Order, taxClasses: seq<TaxClass>)
    requires Valid(o.items) && forall k :: k in o.items.values ==> o.items.values[k].key == k
    ensures RestoreState(New(taxClasses), GetStateToSave(o)).items == o.items
  {
    assert ItemsOf(GetStateToSave(o)) == Values(o.items);
    ReplayRefiles(New(taxClasses), o.items);
  }
}

=== FILE: order_status.dfy ===
/**
 * The order status and its history (Order.php:367-379): `setStatus` always
 * stores the new status and logs a change, with its message, only when the
 * status actually differs from the current one.
 */
module OrderStatus {
  import opened Ledgers
  import opened OrderTypes

  /** `setStatus($status, $message)` */
  function SetStatus(o: Order, status: Status, message: string): (r: Order)
    ensures r.status == status
    ensures o.status != status ==> r.updateMessages == o.updateMessages + [StatusChange(message, o.status, status)]
    ensures o.status == status ==> r == o
    ensures r == o.(status := status, updateMessages := r.updateMessages)
  {
    if o.status != status then
      o.(status := status, updateMessages := o.updateMessages + [StatusChange(message, o.status, status)])
    else
      o.(status := status)
  }

  /**
   * The history leads from status `from` to status `to`: each entry starts
   * where the previous one ended, and each records an actual change.
   */
  predicate Leads(history: seq<StatusChange>, from: Status, to: Status)
    decreases |history|
  {
    if |history| == 0 then from == to
    else
      && history[0].oldStatus == from
      && history[0].oldStatus != history[0].newStatus
      && Leads(history[1..], history[0].newStatus, to)
  }

  /** Extending a history that leads to `to` by a change out of `to` leads to the change's target. */
  lemma {:induction false} LeadsAppend(history: seq<StatusChange>, from: Status, to: Status, change: StatusChange)
    requires Leads(history, from, to)
    requires change.oldStatus == to && change.oldStatus != change.newStatus
    ensures Leads(history + [change], from, change.newStatus)
    decreases |history|
  {
    if |history| == 0 {
      assert ([] + [change])[1..] == [];
    } else {
      assert (history + [change])[1..] == history[1..] + [change];
      LeadsAppend(history[1..], history[0].newStatus, to, change);
    }
  }

  /** The history grows by exactly one entry when the status changes and not at all otherwise. */
  lemma SetStatusHistoryLength(o: Order, status: Status, message: string)
    ensures |SetStatus(o, status, message).updateMessages| ==
      |o.updateMessages| + (if o.status != status then 1 else 0)
  {
  }

  /** Setting the same status twice logs it once; the second message is dropped. */
  lemma SetStatusIdempotent(o: Order, status: Status, first: string, second: string)
    ensures SetStatus(SetStatus(o, status, first), status, second) == SetStatus(o, status, first)
  {
  }

  /**
   * `setStatus` keeps the history consistent with the status: if the log
   * led from `start` to the current status, it leads from `start` to the
   * new one afterwards.
   */
  lemma SetStatusKeepsHistory(o: Order, start: Status, status: Status, message: string)
    requires Leads(o.updateMessages, start, o.status)
    ensures Leads(SetStatus(o, status, message).updateMessages, start, status)
  {
    if o.status != status {
      LeadsAppend(o.updateMessages, start, o.status, StatusChange(message, o.status, status));
    }
  }

  /** A new order's empty history leads from "pending" to its status. */
  lemma NewOrderHistory(taxClasses: seq<TaxClass>)
    ensures Leads(New(taxClasses).updateMessages, Pending, New(taxClasses).status)
  {
  }
}

=== FILE: order_tax.dfy ===
/**
 * The order's tax ledger and its cached total (Order.php:448-514):
 * replacing or topping up the ledger, combining it with the shipping tax,
 * and the lazily computed `totalTax`, which every change of the ledger is
 * meant to invalidate.
 */
module OrderTax {
  import opened Results
  import opened PhpArrays
  import opened Money
  import opened Ledgers
  import opened OrderTypes
  import opened OrderShipping
  import opened OrderItems
  import opened OrderStatus
  import opened OrderState

  /** The cache is empty or holds the sum of the tax ledger. */
  predicate CacheCoherent(o: Order) {
    o.totalTax.None? || o.totalTax.value == Sum(o.tax)
  }

  /** `setTax`: replace the ledger and drop the cached total. */
  function SetTax(o: Order, tax: Ledger): (r: Order)
    ensures r.tax == tax && r.totalTax == None
    ensures CacheCoherent(r)
    ensures r == o.(tax := tax, totalTax := None)
  {
    o.(totalTax := None, tax := tax)
  }

  /**
   * `getCombinedTax`: a copy of the tax ledger with the shipping tax of
   * every class added on; the order itself is not changed.
   */
  function GetCombinedTax(o: Order): (r: Ledger)
    ensures Valid(o.tax) ==> Valid(r)
    ensures WellFormed(o) && Covers(o.tax, o.shippingTax.keys) ==> r.keys == o.tax.keys
  {
    AddEachKeeps(o.tax, o.shippingTax.keys, o.shippingTax.values);
    Merge(o.tax, o.shippingTax)
  }

  /** `updateTaxes`: drop the cached total and add the given amounts class by class; total is left as it is. */
  function UpdateTaxes(o: Order, delta: Ledger): (r: Order)
    ensures r.totalTax == None && CacheCoherent(r)
    ensures Valid(o.tax) ==> Valid(r.tax)
    ensures Valid(o.tax) && Covers(o.tax, delta.keys) ==> r.tax.keys == o.tax.keys
    ensures r == o.(tax := r.tax, totalTax := None)
  {
    AddEachKeeps(o.tax, delta.keys, delta.values);
    o.(totalTax := None, tax := Merge(o.tax, delta))
  }

  /** What `getTotalTax` returns, and the order with its cache as the call leaves it. */
  datatype TotalTaxRead = TotalTaxRead(value: real, order: Order)

  /**
   * `getTotalTax`: answer from the cache when it is filled; otherwise sum
   * the ledger in key order, fill the cache, and answer that.
   */
  function GetTotalTax(o: Order): (r: TotalTaxRead)
    ensures o.totalTax.Some? ==> r.value == o.totalTax.value
    ensures o.totalTax.None? ==> r.value == Sum(o.tax)
    ensures r.order == o.(totalTax := Some(r.value))
  {
    match o.totalTax
    case Some(cached) => TotalTaxRead(cached, o)
    case None => TotalTaxRead(Sum(o.tax), o.(totalTax := Some(Sum(o.tax))))
  }

  /**
   * On a coherent order `getTotalTax` answers the sum of the tax ledger and
   * leaves the order coherent; asking again gives the same answer and
   * changes nothing more.
   */
  lemma TotalTaxIsLedgerSum(o: Order)
    requires CacheCoherent(o)
    ensures GetTotalTax(o).value == Sum(o.tax)
    ensures CacheCoherent(GetTotalTax(o).order)
    ensures GetTotalTax(GetTotalTax(o).order) == GetTotalTax(o)
  {
  }

  /**
   * Every operation that changes the tax ledger leaves the cache coherent,
   * so the next `getTotalTax` sums the new ledger.
   */
  lemma LedgerChangesKeepCacheCoherent(o: Order, item: Item, key: ItemKey, quantity: int, tax: Ledger, ts: TaxService)
    ensures CacheCoherent(AddItem(o, item))
    ensures RemoveItem(o, key).Success? ==> CacheCoherent(RemoveItem(o, key).value.order)
    ensures CacheCoherent(RemoveItems(o))
    ensures CacheCoherent(SetTax(o, tax))
    ensures CacheCoherent(UpdateTaxes(o, tax))
    ensures key in o.items.values ==> CacheCoherent(Resize(o, key, o.items.values[key], quantity, ts))
  {
  }

  /**
   * The remaining operations keep a coherent cache coherent: the shipping
   * operations and `setStatus` leave the tax ledger and the cache alone, and
   * `restoreState` either replays no item, keeping both, or replays items
   * through `addItem`, which clears the cache.
   */
  lemma OtherChangesKeepCacheCoherent(o: Order, m: ShippingMethod, pricing: (ShippingMethod, Order) -> real,
                                      ts: TaxService, status: Status, message: string, s: State)
    requires CacheCoherent(o)
    ensures CacheCoherent(RemoveShippingMethod(o))
    ensures CacheCoherent(SetShippingMethod(o, m, pricing, ts))
    ensures CacheCoherent(SetStatus(o, status, message))
    ensures CacheCoherent(RestoreState(o, s))
  {
  }

  /** The combined ledger holds, for every class, its tax plus its shipping tax. */
  lemma CombinedTaxAmounts(o: Order)
    requires Valid(o.shippingTax)
    ensures forall c :: Amount(GetCombinedTax(o), c) == Amount(o.tax, c) + Amount(o.shippingTax, c)
  {
    forall c ensures Amount(GetCombinedTax(o), c) == Amount(o.tax, c) + Amount(o.shippingTax, c) {
      MergeAmount(o.tax, o.shippingTax, c);
    }
  }

  /** The combined ledger sums to the tax plus the shipping tax. */
  lemma CombinedTaxSum(o: Order)
    requires Valid(o.tax)
    ensures Sum(GetCombinedTax(o)) == Sum(o.tax) + Sum(o.shippingTax)
  {
    MergeSum(o.tax, o.shippingTax);
  }

  /**
   * `updateTaxes` raises every class by the given amount and the ledger's
   * sum, and so the next `getTotalTax`, by the amounts' sum; total stays.
   */
  lemma UpdateTaxesMovesTotalTax(o: Order, delta: Ledger)
    requires Valid(o.tax) && Valid(delta)
    ensures var r := UpdateTaxes(o, delta);
      && GetTotalTax(r).value == Sum(o.tax) + Sum(delta)
      && r.total == o.total
      && forall c :: Amount(r.tax, c) == Amount(o.tax, c) + Amount(delta, c)
  {
    MergeSum(o.tax, delta);
    forall c ensures Amount(UpdateTaxes(o, delta).tax, c) == Amount(o.tax, c) + Amount(delta, c) {
      MergeAmount(o.tax, delta, c);
    }
  }

  /** After a quantity change the next `getTotalTax` sums the moved ledger. */
  lemma ResizeReadsMovedTotalTax(o: Order, key: ItemKey, item: Item, quantity: int, ts: TaxService)
    requires Valid(o.tax)
    ensures GetTotalTax(Resize(o, key, item, quantity, ts)).value ==
      Sum(o.tax) + Times(Total(item.product.taxClasses, LiveRates(ts, item.product)), quantity - item.quantity)
  {
    ResizeTaxSum(o, key, item, quantity, ts);
  }

  /**
   * Lines 543-548 leave the cache alone: with line 542 corrected, once the
   * cache is filled, a quantity change that moves the ledger's sum leaves
   * `getTotalTax` answering the old sum.
   */
  lemma ResizeKeepingCacheGoesStale(o: Order, key: ItemKey, item: Item, quantity: int, ts: TaxService)
    requires Valid(o.tax) && o.totalTax == Some(Sum(o.tax))
    requires Times(Total(item.product.taxClasses, LiveRates(ts, item.product)), quantity - item.quantity) != 0.0
    ensures var r := ResizeKeepingCache(o, key, item, quantity, ts);
      GetTotalTax(r).value == Sum(o.tax) && Sum(r.tax) != Sum(o.tax) && !CacheCoherent(r)
  {
    ResizeTaxSum(o, key, item, quantity, ts);
  }

  /**
   * A concrete instance, with line 542 corrected: an item at 10.0 with a
   * per-unit tax of 1.0 in the class "standard", bought twice, with the tax
   * service quoting 1.0. After `getTotalTax` fills the cache with 2.0,
   * raising the quantity to 3 moves the ledger to 3.0 while `getTotalTax`
   * still answers 2.0; `Resize`, which also clears the cache, answers 3.0.
   */
  lemma StaleTotalTaxExample()
    ensures var product := Product(1, ["standard"]);
      var unitTax := PhpArray(["standard"], map["standard" := 1.0]);
      var item := Item("k", "k", product, 10.0, 2, unitTax);
      var ts := TaxService((m, p, c) => 0.0, (m, p, t, c) => 0.0, (p, t) => 1.0);
      var o := GetTotalTax(AddItem(New(["standard"]), item)).order;
      && o.totalTax == Some(2.0)
      && GetTotalTax(ResizeKeepingCache(o, "k", item, 3, ts)).value == 2.0
      && Sum(ResizeKeepingCache(o, "k", item, 3, ts).tax) == 3.0
      && GetTotalTax(Resize(o, "k", item, 3, ts)).value == 3.0
  {
    var product := Product(1, ["standard"]);
    var unitTax := PhpArray(["standard"], map["standard" := 1.0]);
    var item := Item("k", "k", product, 10.0, 2, unitTax);
    var ts := TaxService((m, p, c) => 0.0, (m, p, t, c) => 0.0, (p, t) => 1.0);
    var start := New(["standard"]);
    var added := AddItem(start, item);
    assert Sum(unitTax) == 1.0;
    assert TotalTax(item) == 2.0;
    AddItemTaxes(start, item);
    var o := GetTotalTax(added).order;
    assert Total(product.taxClasses, LiveRates(ts, product)) == 1.0 by {
      var rates := LiveRates(ts, product);
      assert "standard" in product.taxClasses;
      assert rates["standard"] == 1.0;
      assert product.taxClasses[1..] == [];
      assert Total(product.taxClasses, rates) == Weight(rates, "standard", AsIs) + Total([], rates);
    }
    ResizeTaxSum(o, "k", item, 3, ts);
  }
}

=== FILE: order_tracking.dfy ===
/**
 * What the running figures are meant to be: productSubtotal is the items'
 * costs, subtotal is productSubtotal plus the shipping price, and each tax
 * class holds the items' taxes in that class. The mutators never recompute
 * these sums; they move the figures by deltas (Order.php:242-338, 539-548).
 * This module states which mutators keep the figures equal to what the items
 * add up to, and exhibits the case that breaks it: `addItem` over a key that
 * is already filed adds the new cost without taking the old one off.
 */
module OrderTracking {
  import opened Results
  import opened PhpArrays
  import opened Money
  import opened Ledgers
  import opened OrderTypes
  import opened OrderShipping
  import opened OrderItems
  import opened OrderState

  /** The tax an item contributes to class `c`: its per-unit tax there times its quantity. */
  function TaxIn(c: TaxClass): Item -> real {
    (item: Item) => Times(Amount(item.tax, c), item.quantity)
  }

  /** The items' costs added up in key order. */
  function ItemsCost(items: Items): real {
    SumOf(items, Cost)
  }

  /** The items' taxes in class `c` added up in key order. */
  function ItemsTax(items: Items, c: TaxClass): real {
    SumOf(items, TaxIn(c))
  }

  /**
   * Every item is filed under its own id, so `removeItem` unsets the entry
   * it looked up, and lists each of its tax classes once.
   */
  predicate FiledById(items: Items) {
    forall k :: k in items.values ==> items.values[k].id == k && Valid(items.values[k].tax)
  }

  /** productSubtotal is the items' costs and subtotal adds the shipping price to it. */
  predicate CostTracked(o: Order) {
    && WellFormed(o)
    && FiledById(o.items)
    && o.productSubtotal == ItemsCost(o.items)
    && o.subtotal == o.productSubtotal + o.shippingPrice
  }

  /** Every tax class holds the items' taxes in that class. */
  ghost predicate TaxTracked(o: Order) {
    forall c :: Amount(o.tax, c) == ItemsTax(o.items, c)
  }

  /** The figures are what the items and the shipping price add up to. */
  ghost predicate Tracks(o: Order) {
    CostTracked(o) && TaxTracked(o)
  }

  /** A new order tracks its (no) items. */
  lemma NewTracks(taxClasses: seq<TaxClass>)
    ensures Tracks(New(taxClasses))
  {
  }

  /** `addItem` under a fresh key, for an item filed under its id, keeps the figures tracking the items. */
  lemma AddItemTracks(o: Order, item: Item)
    requires Tracks(o)
    requires item.key !in o.items.values && item.id == item.key && Valid(item.tax)
    ensures Tracks(AddItem(o, item))
  {
    var r := AddItem(o, item);
    SumOfSet(o.items, item.key, item, Cost);
    AddItemTaxes(o, item);
    forall c ensures Amount(r.tax, c) == ItemsTax(r.items, c) {
      SumOfSet(o.items, item.key, item, TaxIn(c));
    }
  }

  /**
   * `addItem` over a key already filed counts the replaced item's cost
   * twice: productSubtotal exceeds the items' costs by the old item's cost.
   */
  lemma AddItemOverKeyCountsOldCost(o: Order, item: Item)
    requires CostTracked(o) && item.key in o.items.values
    ensures var r := AddItem(o, item);
      r.productSubtotal == ItemsCost(r.items) + Cost(o.items.values[item.key])
  {
    SumOfSet(o.items, item.key, item, Cost);
  }

  /** The first `addItem` on a new order files the item alone and sets productSubtotal to its cost. */
  lemma AddItemToNew(item: Item)
    ensures var once := AddItem(New([]), item);
      && once.items == PhpArray([item.key], map[item.key := item])
      && once.productSubtotal == Cost(item)
  {
  }

  /** Adding the same item of cost 10.0 twice: productSubtotal 20.0, a single item, items' cost 10.0. */
  lemma AddItemTwiceExample()
    ensures var item := Item("k", "k", Product(1, []), 10.0, 1, Empty());
      var r := AddItem(AddItem(New([]), item), item);
      && r.items.keys == ["k"]
      && r.productSubtotal == 20.0
      && ItemsCost(r.items) == 10.0
  {
    var item := Item("k", "k", Product(1, []), 10.0, 1, Empty());
    assert Cost(item) == 10.0 by {
      assert Times(10.0, 1) == Times(10.0, 0) + 10.0;
    }
    AddItemToNew(item);
    var items := PhpArray(["k"], map["k" := item]);
    assert Set(items, "k", item) == items;
    assert ItemsCost(items) == Weight(items.values, "k", Cost) + SumKeys([], items.values, Cost) by {
      assert items.keys[1..] == [];
    }
  }

  /** `removeItem` keeps the figures tracking the items when every item is filed under its id. */
  lemma RemoveItemTracks(o: Order, key: ItemKey)
    requires Tracks(o) && key in o.items.values
    ensures Tracks(RemoveItem(o, key).value.order)
  {
    var r := RemoveItem(o, key).value.order;
    var item := o.items.values[key];
    assert item.id == key;
    SumOfUnset(o.items, key, Cost);
    RemoveItemTaxes(o, key);
    forall c ensures Amount(r.tax, c) == ItemsTax(r.items, c) {
      SumOfUnset(o.items, key, TaxIn(c));
    }
  }

  /** `removeItems` leaves a well-formed order tracking: no items, no shipping, every figure zero. */
  lemma RemoveItemsTracks(o: Order)
    requires WellFormed(o)
    ensures Tracks(RemoveItems(o))
  {
  }

  /** `removeShippingMethod` takes the price off subtotal, so subtotal still adds it to productSubtotal. */
  lemma RemoveShippingTracks(o: Order)
    requires Tracks(o)
    ensures Tracks(RemoveShippingMethod(o))
  {
  }

  /** `setShippingMethod` swaps the old price for the new one in subtotal. */
  lemma SetShippingTracks(o: Order, m: ShippingMethod, pricing: (ShippingMethod, Order) -> real, ts: TaxService)
    requires Tracks(o)
    ensures Tracks(SetShippingMethod(o, m, pricing, ts))
  {
  }

  /**
   * The corrected quantity change keeps productSubtotal and subtotal
   * tracking the items' costs: the stored item's cost moves by exactly the
   * price times the change in quantity.
   */
  lemma ResizeTracksCost(o: Order, key: ItemKey, quantity: int, ts: TaxService)
    requires CostTracked(o) && key in o.items.values
    ensures CostTracked(Resize(o, key, o.items.values[key], quantity, ts))
  {
    var item := o.items.values[key];
    SumOfSet(o.items, key, item.(quantity := quantity), Cost);
    TimesAdd(item.price, item.quantity, quantity - item.quantity);
  }

  /** Summing costs over listed keys is adding up the costs of their values in the same order. */
  lemma {:induction false} SumKeysIsCostOf(ks: seq<ItemKey>, m: map<ItemKey, Item>)
    ensures SumKeys(ks, m, Cost) == CostOf(ValuesOf(ks, m))
    decreases |ks|
  {
    if |ks| > 0 {
      SumKeysIsCostOf(ks[1..], m);
      if ks[0] in m {
        assert ([m[ks[0]]] + ValuesOf(ks[1..], m))[1..] == ValuesOf(ks[1..], m);
      }
    }
  }

  /**
   * The items' costs over the array are the costs of `foreach ($items as
   * $item)` added up: the fold `restoreState` replays equals `ItemsCost`.
   */
  lemma ItemsCostIsCostOf(items: Items)
    ensures ItemsCost(items) == CostOf(Values(items))
  {
    SumKeysIsCostOf(items.keys, items.values);
  }

  /**
   * Saving an order whose productSubtotal is its items' costs and restoring
   * into a new order brings productSubtotal back, although the snapshot does
   * not carry it: the replay rebuilds it.
   */
  lemma SaveThenRestoreProductSubtotal(o: Order, taxClasses: seq<TaxClass>)
    requires CostTracked(o)
    ensures RestoreState(New(taxClasses), GetStateToSave(o)).productSubtotal == o.productSubtotal
  {
    SaveThenRestore(o, taxClasses);
    ItemsCostIsCostOf(o.items);
  }
}

=== FILE: order_types.dfy ===
/**
 * The entities of the Jigoshop order aggregate (src/Jigoshop/Entity/Order.php):
 * line items, the shipping selection, the status history, the order record
 * itself, and the collaborators the order consults (tax service, shipping
 * pricing), which are given as function-valued parameters.
 */
module OrderTypes {
  import opened Results
  import opened PhpArrays
  import opened Money
  import opened Ledgers

  type ItemKey = string
  type Status = string

  /** The status a new order starts in (`Status::PENDING`). */
  const Pending: Status := "pending"

  /** The bought product, as far as the order consults it: the tax classes it is taxed under. */
  datatype Product = Product(id: int, taxClasses: seq<TaxClass>)

  /**
   * A line item. `key` is where `addItem` files it in the order and `id` is
   * where `removeItem` unsets it; `tax` is the per-unit tax by tax class.
   */
  datatype Item = Item(key: ItemKey, id: ItemKey, product: Product, price: real, quantity: int, tax: Ledger)

  /** The order's items, keyed by item key, in insertion order. */
  type Items = PhpArray<ItemKey, Item>

  /** `Item::getCost()`: unit price times quantity. */
  function Cost(item: Item): real {
    Times(item.price, item.quantity)
  }

  /** `Item::getTotalTax()`: the per-unit taxes of all classes, times quantity. */
  function TotalTax(item: Item): real {
    Times(Sum(item.tax), item.quantity)
  }

  datatype ShippingMethod = ShippingMethod(id: string, taxClasses: seq<TaxClass>)

  datatype Customer = Guest | Registered(id: int)

  /** One entry of the status history: `{message, old_status, new_status}`. */
  datatype StatusChange = StatusChange(message: string, oldStatus: Status, newStatus: Status)

  datatype Order = Order(
    id: Option<int>,
    number: Option<string>,
    customer: Customer,
    items: Items,
    shippingMethod: Option<ShippingMethod>,
    paymentMethod: Option<string>,
    productSubtotal: real,
    subtotal: real,
    total: real,
    discount: real,
    tax: Ledger,
    shippingTax: Ledger,
    totalTax: Option<real>,       // lazily computed sum of `tax`; None once invalidated
    shippingPrice: real,
    status: Status,
    customerNote: Option<string>,
    updateMessages: seq<StatusChange>)

  /** The three PHP arrays of the order list each key once. */
  predicate WellFormed(o: Order) {
    Valid(o.items) && Valid(o.tax) && Valid(o.shippingTax)
  }

  /** `TaxServiceInterface` as the order calls it. */
  datatype TaxService = TaxService(
    calculateShipping: (ShippingMethod, real, Customer) -> real,
    getShipping: (ShippingMethod, real, TaxClass, Customer) -> real,
    get: (Product, TaxClass) -> real)

  datatype OrderError =
    | NoSuchItem(key: ItemKey)     // the item key is not in the order
    | QuantityNotNumeric           // updateQuantity was given a non-numeric quantity
    | UnsupportedOperands          // PHP arithmetic between a float and an array

  /** The `WP_DEBUG` switch: strict raises on a missing item, lenient logs and returns null. */
  datatype Mode = Strict | Lenient

  /** The constructor: a guest's empty pending order, both tax ledgers zero for every known class. */
  function New(taxClasses: seq<TaxClass>): (o: Order)
    ensures WellFormed(o)
    ensures o.items.keys == [] && o.updateMessages == []
    ensures o.customer == Guest && o.status == Pending
    ensures o.productSubtotal == 0.0 && o.subtotal == 0.0 && o.total == 0.0
    ensures o.discount == 0.0 && o.shippingPrice == 0.0
    ensures o.totalTax == None && o.shippingMethod == None
    ensures o.tax == o.shippingTax
    ensures forall c :: c in o.tax.values <==> c in taxClasses
    ensures forall c :: Amount(o.tax, c) == 0.0
    ensures Sum(o.tax) == 0.0
    ensures NoDuplicates(taxClasses) ==> o.tax.keys == taxClasses
  {
    var zeros := ZeroFor(taxClasses);
    Order(None, None, Guest, Empty(), None, None, 0.0, 0.0, 0.0, 0.0, zeros, zeros, None, 0.0, Pending, None, [])
  }

  /** `foreach ($taxClasses as $class) $ledger[$class] = 0.0;` starting from an empty array. */
  function ZeroFor(taxClasses: seq<TaxClass>): (l: Ledger)
    ensures Valid(l)
    ensures forall c :: c in l.values <==> c in taxClasses
    ensures forall c :: Amount(l, c) == 0.0
    ensures Sum(l) == 0.0
    ensures NoDuplicates(taxClasses) ==> l.keys == taxClasses
  {
    var zeros := map c | c in taxClasses :: 0.0;
    var l := SetEach(Empty(), taxClasses, zeros);
    forall c ensures Amount(l, c) == 0.0 {
      AmountSetEach(Empty(), taxClasses, zeros, c);
    }
    SumOfZeros(l);
    if NoDuplicates(taxClasses) then
      SetEachFresh(Empty(), taxClasses, zeros);
      l
    else
      l
  }
}

=== FILE: php_arrays.dfy ===
/**
 * PHP arrays as the order uses them: insertion-ordered maps. An array is the
 * sequence of its keys in insertion order together with the map from each
 * key to its value. `$a[$k] = $v` replaces the value and keeps the key's
 * place when the key is present and appends the key otherwise; `unset` drops
 * both. `Valid` states that the keys are listed once each and are exactly
 * the keys of the map; every operation here preserves it.
 */
module PhpArrays {
  import opened Results

  datatype PhpArray<K(==), V> = PhpArray(keys: seq<K>, values: map<K, V>)

  /** `array()` */
  function Empty<K(==), V>(): (r: PhpArray<K, V>)
    ensures r.keys == [] && r.values == map[]
  {
    PhpArray([], map[])
  }

  /** No element occurs twice. */
  predicate NoDuplicates<K(==)>(s: seq<K>) {
    forall i, j :: 0 <= i < j < |s| ==> s[i] != s[j]
  }

  /** The key order lists every key of the map exactly once. */
  predicate Valid<K(==,!new), V>(a: PhpArray<K, V>) {
    && NoDuplicates(a.keys)
    && (forall k :: k in a.values ==> k in a.keys)
    && (forall k :: k in a.keys ==> k in a.values)
  }

  /** `isset($a[$k]) ? $a[$k] : null` */
  function Get<K(==), V>(a: PhpArray<K, V>, k: K): (r: Option<V>)
    ensures r.Some? <==> k in a.values
    ensures r.Some? ==> r.value == a.values[k]
  {
    if k in a.values then Some(a.values[k]) else None
  }

  /** `$a[$k] = $v`: overwrite in place, or append a new key at the end. */
  function Set<K(==,!new), V>(a: PhpArray<K, V>, k: K, v: V): (r: PhpArray<K, V>)
    ensures r.values == a.values[k := v]
    ensures Valid(a) && k in a.values ==> r.keys == a.keys
    ensures Valid(a) && k !in a.values ==> r.keys == a.keys + [k]
  {
    if k in a.values then PhpArray(a.keys, a.values[k := v])
    else PhpArray(a.keys + [k], a.values[k := v])
  }

  /** The sequence without any occurrence of `k`, order kept. */
  function Remove<K(==,!new)>(s: seq<K>, k: K): (r: seq<K>)
    ensures forall x :: x in r <==> x in s && x != k
    ensures |r| <= |s|
    ensures k !in s ==> r == s
    ensures NoDuplicates(s) ==> NoDuplicates(r)
  {
    if |s| == 0 then []
    else if s[0] == k then Remove(s[1..], k)
    else
      var rest := Remove(s[1..], k);
      assert NoDuplicates(s) ==> s[0] !in s[1..] by {
        if NoDuplicates(s) {
          HeadNotInTail(s);
        }
      }
      [s[0]] + rest
  }

  /** In a sequence without duplicates the first element does not come back. */
  lemma HeadNotInTail<K>(s: seq<K>)
    requires |s| > 0 && NoDuplicates(s)
    ensures s[0] !in s[1..]
  {
  }

  /** Appending the head and then the tail is appending the whole. */
  lemma AppendHead<K>(a: seq<K>, s: seq<K>)
    requires |s| > 0
    ensures a + [s[0]] + s[1..] == a + s
  {
    assert s == [s[0]] + s[1..];
  }

  /** `unset($a[$k])` */
  function Unset<K(==,!new), V>(a: PhpArray<K, V>, k: K): (r: PhpArray<K, V>)
    ensures r.values == a.values - {k}
    ensures r.keys == Remove(a.keys, k)
    ensures Valid(a) ==> Valid(r)
  {
    PhpArray(Remove(a.keys, k), a.values - {k})
  }

  /** The values of the listed keys, in list order; a key without a value contributes nothing. */
  function ValuesOf<K(==), V(==)>(ks: seq<K>, m: map<K, V>): (r: seq<V>)
    ensures |r| <= |ks|
    ensures forall v :: v in r ==> v in m.Values
  {
    if |ks| == 0 then []
    else if ks[0] in m then [m[ks[0]]] + ValuesOf(ks[1..], m)
    else ValuesOf(ks[1..], m)
  }

  /** `foreach ($a as $v)`: the values in insertion order. */
  function Values<K(==), V(==)>(a: PhpArray<K, V>): seq<V> {
    ValuesOf(a.keys, a.values)
  }

  /** The weight `f` gives the value under `k`; an absent key weighs zero. */
  function Weight<K(==), V>(m: map<K, V>, k: K, f: V -> real): real {
    if k in m then f(m[k]) else 0.0
  }

  /** The weights of the listed keys added up in order. */
  function SumKeys<K(==), V>(ks: seq<K>, m: map<K, V>, f: V -> real): real {
    if |ks| == 0 then 0.0 else Weight(m, ks[0], f) + SumKeys(ks[1..], m, f)
  }

  /** `array_reduce($a, fn($s, $x) => $s + f($x), 0.0)`: every value weighed by `f`, in key order. */
  function SumOf<K(==), V>(a: PhpArray<K, V>, f: V -> real): real {
    SumKeys(a.keys, a.values, f)
  }

  /** Summing over an appended key adds that key's weight. */
  lemma {:induction false} SumKeysAppend<K(!new), V>(ks: seq<K>, k: K, m: map<K, V>, f: V -> real)
    ensures SumKeys(ks + [k], m, f) == SumKeys(ks, m, f) + Weight(m, k, f)
    decreases |ks|
  {
    if |ks| > 0 {
      assert (ks + [k])[1..] == ks[1..] + [k];
      SumKeysAppend(ks[1..], k, m, f);
    }
  }

  /** Only the weights of listed keys count. */
  lemma {:induction false} SumKeysUnlisted<K(!new), V>(ks: seq<K>, m: map<K, V>, k: K, v: V, f: V -> real)
    requires k !in ks
    ensures SumKeys(ks, m[k := v], f) == SumKeys(ks, m, f)
    ensures SumKeys(ks, m - {k}, f) == SumKeys(ks, m, f)
    decreases |ks|
  {
    if |ks| > 0 {
      SumKeysUnlisted(ks[1..], m, k, v, f);
    }
  }

  /** Changing the value of a key listed once changes the sum by the new weight less the old one. */
  lemma {:induction false} SumKeysUpdate<K(!new), V>(ks: seq<K>, m: map<K, V>, k: K, v: V, f: V -> real)
    requires NoDuplicates(ks) && k in ks
    ensures SumKeys(ks, m[k := v], f) == SumKeys(ks, m, f) - Weight(m, k, f) + f(v)
    decreases |ks|
  {
    if ks[0] == k {
      SumKeysUnlisted(ks[1..], m, k, v, f);
    } else {
      SumKeysUpdate(ks[1..], m, k, v, f);
    }
  }

  /** Dropping a key listed once subtracts exactly its weight. */
  lemma {:induction false} SumKeysRemove<K(!new), V>(ks: seq<K>, m: map<K, V>, k: K, f: V -> real)
    requires NoDuplicates(ks)
    ensures SumKeys(Remove(ks, k), m - {k}, f) == SumKeys(ks, m, f) - (if k in ks then Weight(m, k, f) else 0.0)
    decreases |ks|
  {
    if |ks| > 0 {
      SumKeysRemove(ks[1..], m, k, f);
    }
  }

  /** Writing a key changes the sum by the new weight less the old one. */
  lemma SumOfSet<K(!new), V>(a: PhpArray<K, V>, k: K, v: V, f: V -> real)
    requires Valid(a)
    ensures SumOf(Set(a, k, v), f) == SumOf(a, f) - Weight(a.values, k, f) + f(v)
  {
    if k in a.values {
      SumKeysUpdate(a.keys, a.values, k, v, f);
    } else {
      SumKeysAppend(a.keys, k, a.values[k := v], f);
      SumKeysUnlisted(a.keys, a.values, k, v, f);
    }
  }

  /** Unsetting a key subtracts exactly its weight. */
  lemma SumOfUnset<K(!new), V>(a: PhpArray<K, V>, k: K, f: V -> real)
    requires Valid(a)
    ensures SumOf(Unset(a, k), f) == SumOf(a, f) - Weight(a.values, k, f)
  {
    SumKeysRemove(a.keys, a.values, k, f);
  }

  /** Two arrays with the same key order and the same value under every key are the same array. */
  lemma SameArray<K(!new), V>(a: PhpArray<K, V>, b: PhpArray<K, V>)
    requires a.keys == b.keys
    requires forall k :: k in a.values <==> k in b.values
    requires forall k :: k in b.values ==> a.values[k] == b.values[k]
    ensures a == b
  {
  }

  /** Appending a fresh key and unsetting it again gives back the original array. */
  lemma UnsetAppended<K(!new), V>(a: PhpArray<K, V>, k: K, v: V)
    requires Valid(a) && k !in a.values
    ensures Unset(Set(a, k, v), k) == a
  {
    assert Remove(a.keys + [k], k) == a.keys by {
      RemoveAppended(a.keys, k);
    }
    assert a.values[k := v] - {k} == a.values;
  }

  /** Removing a fresh element appended at the end gives back the original sequence. */
  lemma {:induction false} RemoveAppended<K(!new)>(s: seq<K>, k: K)
    requires k !in s
    ensures Remove(s + [k], k) == s
    decreases |s|
  {
    if |s| == 0 {
      assert [k][1..] == [];
    } else {
      assert (s + [k])[1..] == s[1..] + [k];
      RemoveAppended(s[1..], k);
    }
  }

  /** Writing back the value a key already holds changes nothing. */
  lemma SetSame<K(!new), V>(a: PhpArray<K, V>, k: K, v: V)
    requires Valid(a) && Get(a, k) == Some(v)
    ensures Set(a, k, v) == a
  {
    assert a.values[k := v] == a.values;
  }

  /** Writing a key twice keeps only the second write. */
  lemma SetTwice<K(!new), V>(a: PhpArray<K, V>, k: K, v: V, w: V)
    requires Valid(a)
    ensures Set(Set(a, k, v), k, w) == Set(a, k, w)
  {
    assert a.values[k := v][k := w] == a.values[k := w];
  }
}

=== FILE: results.dfy ===
/** Failure-carrying values shared by the order model. */
module Results {

  /** A value that may be absent: PHP's `null`, `false` or an unset array offset. */
  datatype Option<+T> = None | Some(value: T) {
    function GetOr(default: T): T {
      match this
      case Some(v) => v
      case None => default
    }
  }

  /** The outcome of an operation that the source aborts with an exception or a fatal error. */
  datatype Result<+T, +E> = Success(value: T) | Failure(error: E)
}
